=== FILE: README.md ===
# Magento web-service client, modelled in Dafny

This project models the core of `magento`, a Python client for the Magento
e-commerce web-service API (XML-RPC or SOAP). It covers five parts:

- **Endpoint expansion.** `expand_url` turns a store's base URL into the
  service endpoint (`urls.dfy`).
- **The `API` connection object.** Construction checks the protocol and
  resolves the URL. `connect` creates the protocol client. `__enter__` logs in
  and keeps the session token. `__exit__` ends the session and forgets it.
  `call` and `multiCall` forward the session and their arguments unchanged.
  The `with` block composes these steps (`api.dfy`).
- **The remote side.** The server is an oracle that answers each request.
  A log records every request that reaches it, with the client object that
  sent it (`remote.dfy`). Every proof about what is sent is stated over this log.
- **The facades** (`catalog.py`, `customer.py`, `sales.py`). Each facade
  method is a table entry with four parts:
  - its parameters and their defaults;
  - the remote resource path;
  - how the bound values are laid out as the remote argument list;
  - whether the raw reply is passed through `int(...)`, `bool(...)` or neither.

  `marshal.dfy` holds Python's argument binding, the layouts and the
  coercions. `values.dfy` holds Python truthiness, `x or y`, `x and y`,
  `bool()` and `int()` on wire values. `facades.dfy` puts a facade call
  together. Camel-case and underscore aliases are the same table entry, and so
  is the deprecated `createOption`.
- **`Client`.** It has eleven lazy catalog accessors. The first read of an
  accessor builds the facade from the client's attributes with
  `full_url=True`, logs it in and keeps it in the client's instance
  dictionary under the class name. Later reads return the kept facade and send
  nothing (`client.dfy`).

Python's `x and y or z` idiom in `API.__init__` is modelled as written. The
stored URL is the given one only when `full_url` is set *and* the URL is
non-empty. An empty URL is expanded even with `full_url=True`. Because of
this, a resolved URL is never empty. That is why `Client` facades, which are
built from the already resolved URL with `full_url=True`, reach exactly the
client's endpoint and never expand it a second time.

`call` and `multiCall` have no session guard: they send whatever session is
held, `None` included. `multiCall` takes only the list of calls.

Every facade class inherits `call`, `multiCall`, `connect`, `__enter__` and
`__exit__` from `API`, and none of them overrides one. A facade call looks the
name up among the class's own methods first and then among the inherited ones.
The kept facades of a `Client` are the very objects the caller uses, so a
method that changes a facade's connection changes the kept one.

## Model

| member | source | states |
|---|---|---|
| Urls.ServicePart | magento/utils.py:21-24 | only the exact name `soap` selects the WSDL path; every other name selects the XML-RPC path |
| Urls.ExpandUrl | magento/utils.py:13-25 | the expansion starts with the base URL and ends with the service path, with exactly one `/` between them: one is added only when the base does not already end in one |
| Urls.ExpandUrlNonEmpty | magento/utils.py:25 | every base URL, the empty one included, expands to a non-empty endpoint |
| Urls.ExpandUrlTrailingSlash | magento/utils.py:25 | a base without a trailing slash and the same base with one expand to the same endpoint |
| Urls.ExpandUrlLocalhostSoap | tests/test_utils.py:33-37 | `http://localhost` with or without a trailing slash expands to `http://localhost/api/?wsdl` |
| Urls.ExpandUrlLocalhostXmlRpc | tests/test_utils.py:33-38 | `http://localhost` with or without a trailing slash expands to `http://localhost/index.php/api/xmlrpc` |
| Values.ToBool | magento/catalog.py:117 | `bool(x)` is a boolean that is true exactly when `x` is truthy |
| Values.IntOf | magento/customer.py:48 | `int(x)` succeeds exactly on booleans, integers and signed decimal strings; other strings raise `ValueError` and `None`, lists and dicts raise `TypeError` |
| Values.IntOfSpellings | magento/customer.py:48 | `int()` gives the same number with a `+` sign or a leading zero, and the negated number with a `-` sign, so every accepted spelling of a number reads back as that number |
| Values.IntOfSpellingExamples | magento/customer.py:48 | `int("+5")`, `int("007")` and `int("-0")` are 5, 7 and 0 |
| Values.IntOfDecimalString | magento/customer.py:48 | `int()` reads every integer back from its decimal spelling, so an id sent as text comes back as that integer |
| Api.ResolveUrl | magento/api.py:104 | the given URL is kept only when `full_url` is set and the URL is non-empty, otherwise it is expanded; the result is never empty |
| Api.Construct | magento/api.py:102-111 | construction succeeds exactly when the protocol is installed, raising on any other name; every argument is stored, the session starts as `None` and there is no client yet |
| Api.Connect | magento/api.py:113-125 | only the client changes; it is bound to the stored URL, and the XML-RPC proxy allows `None` and carries the transport |
| Api.Connected | magento/api.py:132-133 | `__enter__` connects only when there is no client, and otherwise keeps the existing one |
| Api.Enter | magento/api.py:127-140 | exactly one login with the stored credentials is sent; on success the returned token becomes the session, and a fault leaves the session as it was and is raised |
| Api.Exit | magento/api.py:142-152 | without a client nothing is sent and `AttributeError` is raised; otherwise exactly one `endSession` with the current session is sent, and the session is cleared only when that succeeds |
| Api.Call | magento/api.py:154-162 | exactly one call carrying the held session, the path and the arguments unchanged is sent, and its reply is returned untouched |
| Api.MultiCall | magento/api.py:164-171 | exactly one multicall carrying the held session and the batch unchanged is sent, and its reply is returned untouched |
| Api.RunCalls | magento/api.py:66-67 | a series of calls on one connection keeps the earlier log and appends at most one request per call; without a client the first call raises and nothing is sent; if none raises, there is one result and one request per call |
| Api.RunCallsEvents | magento/api.py:154-162 | the requests a series of calls appends are its calls in order, each with the connection's session, path and arguments |
| Api.RunCallsAnswers | magento/api.py:154-162 | when no call raises, each result is the server's answer to that call's own request |
| Api.RunCallsFault | magento/api.py:154-162 | when a call raises, every earlier call was answered, the raising call is the last request sent, and its fault is the outcome |
| Api.WithBlock | magento/api.py:127-152 | a `with` block sends a login first and keeps the earlier log; if the login raises, nothing else is sent, the connection keeps its new client and the fault is raised |
| Api.WithBlockPhases | magento/api.py:127-152 | after an answered login the token is the session, the block's calls run, and one `endSession(token)` ends the log; if it is answered the session is cleared and the calls' outcome is returned; if it raises the token is kept and its fault replaces the outcome |
| Api.WithBlockLog | magento/api.py:127-162 | after an answered login, the log holds the login, then only the block's calls in order with the token, then one `endSession(token)` |
| Api.WithBlockResults | magento/api.py:66-67 | when the exit is answered and no call raised, there is one result per call, each the server's answer to its own request |
| Api.WithBlockFault | magento/api.py:142-162 | when the exit is answered but a call raised, the outcome is the fault of the last request before `endSession` |
| Api.ConstructWithDefaults | magento/api.py:35-36 | `API(url, username, password)` targets magento 1.3.2.4 over XML-RPC at the expanded base URL, with no transport |
| Api.ReenterAfterExit | magento/api.py:132-152 | after `__exit__` the same client logs in again: exactly an `endSession` and then a login are sent |
| Marshal.Fill | magento/sales.py:36 | filling parameters in order succeeds exactly when each of them has a positional, keyword or default value, and yields those values |
| Marshal.Bind | magento/sales.py:36 | a call binds exactly when there are not too many positional arguments, every keyword names a parameter not already filled, and nothing is left without a value; otherwise `TypeError` |
| Marshal.BindAllPositional | magento/catalog.py:268 | passing every parameter positionally binds exactly the arguments given |
| Marshal.BindOmitted | magento/sales.py:69-70 | an omitted parameter takes its default, and omitting a required one is a `TypeError` |
| Marshal.BindWithDefaults | magento/sales.py:36 | a call that passes a prefix positionally binds that prefix followed by the defaults |
| Marshal.StoreViewIfSetArgs | magento/catalog.py:30 | `currentStore` sends `[store_view]` when it is truthy and `[]` otherwise |
| Marshal.FiltersOrEmptyDictArgs | magento/customer.py:39 | `Customer.list` sends `[filters]` for truthy filters and `[{}]` for every falsy one |
| Marshal.AttributesIfSetArgs | magento/customer.py:57-60 | the attributes are sent after the id exactly when they are truthy |
| Marshal.NoneCommentArgs | magento/sales.py:77-78 | a `None` comment is sent as `""`; every other argument and the list's length are unchanged |
| Marshal.Coerce | magento/customer.py:48 | no coercion returns the reply as is; `bool` gives a boolean with the reply's truthiness; `int` succeeds exactly when `int()` accepts the reply, and otherwise raises its error |
| Catalog.CurrentStoreRule | magento/catalog.py:23-31 | the five store-scoped catalog facades have `currentStore(store_view=None)`, send the store view only when it is truthy, and return an integer |
| Catalog.CategoryAliases | magento/catalog.py:133-183 | the underscore spellings of the category-product methods are the same methods |
| Catalog.CreateOptionIsAddOption | magento/catalog.py:384-400 | `createOption` is `addOption` and returns a boolean |
| Catalog.CategoryTreeSendsTwo | magento/catalog.py:33-41 | `tree` always sends both of its arguments, `None` defaults included |
| Customers.CustomerListWithoutFilters | magento/customer.py:28-39 | `list()`, `list(None)` and `list({})` all send `[{}]` |
| Customers.CustomerInfoArgs | magento/customer.py:50-60 | `info(id)` sends `[id]`; with truthy attributes it sends `[id, attributes]` |
| Sales.OrderSearchRecord | magento/sales.py:36-57 | `search` sends one options record: `imported` false, falsy filters as `{}`, falsy fields as `[]`, a falsy limit as 1000, and the page as given |
| Sales.OrderSearchDefaults | magento/sales.py:36-57 | `search()` asks for page 1 of at most 1000 orders without filters |
| Sales.OrderListSendsNone | magento/sales.py:21-34 | `Order.list()` sends `[None]`, with no empty-dict substitution |
| Sales.OrderAddCommentDefaults | magento/sales.py:69-86 | `addcomment(id, status)` sends `[id, status, "", False]` and returns a boolean |
| Sales.CreateCommentHandling | magento/sales.py:142-164 | `Shipment.create` replaces a `None` comment with `""`; `Invoice.create` sends the `None` as is |
| Sales.ShipmentAddCommentDefaults | magento/sales.py:166-181 | the shipment comment defaults `email` to true and sends a `None` comment as it is |
| Sales.InvoiceAddCommentDefaults | magento/sales.py:298-312 | the invoice comment defaults `email` to false and sends a `None` comment as `""` |
| Sales.SalesAliases | magento/sales.py:86-315 | the camel-case spellings of order, shipment and invoice methods are the same methods |
| Facades.Own | magento/customer.py:41-48 | a facade's own method raises `TypeError` on arguments that do not bind and sends nothing; it never changes the connection; on success exactly one request was sent and answered, and the result is that answer coerced, an integer for `int` methods and a boolean for `bool` methods |
| Facades.Inherit | magento/api.py:113-171 | an inherited method raises `TypeError` on arguments that do not bind; `call` and `multiCall` keep the connection; `connect` only creates the client; `__enter__` logs in and returns the facade itself; `__exit__` ends the session and returns `None`; only the client and session can change |
| Facades.CallMethod | magento/catalog.py:17 | the class's own methods come first, then the five inherited `API` methods; a name that is neither is reported as `AttributeError` and sends nothing; at most one request is sent, the earlier log is kept, and only the client and session can change |
| Facades.InheritedNotShadowed | magento/catalog.py:17-433 | no facade class defines a method named `call`, `multiCall`, `connect`, `__enter__` or `__exit__` |
| Facades.InheritedCallRecords | magento/api.py:154-162 | `call(path, arguments)` on any facade sends exactly those values with the facade's session and returns the raw reply |
| Facades.InheritedMultiCallRecords | magento/api.py:164-171 | `multiCall(calls)` on any facade sends exactly that batch with the facade's session and returns the raw reply |
| Facades.InheritedCallScenario | magento/api.py:154-162 | `Category().call('catalog_category.tree', [])` logs exactly that call |
| Facades.InheritedExitScenario | magento/api.py:142-152 | `facade.__exit__(None, None, None)` sends one `endSession` with the facade's session and, if it succeeds, clears the session |
| Facades.CallMethodRecords | magento/api.py:158-159 | a facade call that binds sends exactly the session, the method's path and the laid-out arguments, and returns the coerced answer |
| Facades.CustomerCreateScenario | magento/customer.py:41-48 | `create(data)` sends `customer.create` with `[data]` and turns a numeric-string id into that integer |
| Facades.CategoryDeleteScenario | magento/catalog.py:110-117 | `delete(id)` sends `[id]` and returns the truthiness of the reply |
| Facades.ProductCreateScenario | magento/catalog.py:268-281 | `create` sends its four values in order and, when it succeeds, returns an integer |
| Facades.CurrentStoreScenario | magento/catalog.py:23-31 | `currentStore()` sends an empty argument list and, when it succeeds, returns an integer |
| Facades.ListWithoutFiltersDiffers | magento/customer.py:39 | without filters `Order.list` sends `[None]` while `Customer.list` sends `[{}]` |
| Facades.CatalogResultTypes | magento/catalog.py:69-433 | whatever the arguments, category and product creation return integers, category update, move and delete return booleans, and attribute create and update return the server's answer untouched |
| Facades.CustomerResultTypes | magento/customer.py:41-120 | whatever the arguments, customer and address creation return integers, and customer update and delete return the server's answer untouched |
| Facades.SalesResultTypes | magento/sales.py:88-365 | whatever the arguments, order hold, unhold and cancel, and invoice capture, void and cancel, return booleans |
| Facades.AddressScenario | magento/customer.py:103-120 | `CustomerAddress.list(customer)` sends `[customer]` and `.create(customer, data)` sends `[customer, data]` |
| Facades.CreateOptionScenario | magento/catalog.py:396-400 | `createOption` sends and returns exactly what `addOption` does for every argument list |
| Client.NewClient | magento/client.py:55 | a client is an `API` connection with an empty instance dictionary |
| Client.Access | magento/client.py:37-52 | a kept facade is returned with nothing sent; otherwise exactly one login is sent; on success the logged-in facade is kept under its class name; on failure nothing is kept; no other entry changes |
| Client.NewClientCoherent | magento/client.py:55 | a new client satisfies the client invariant |
| Client.FacadeUrlIsClientUrl | magento/client.py:43-50 | the facade is built for exactly the client's resolved endpoint |
| Client.AccessKeepsCoherent | magento/client.py:37-52 | reading an accessor keeps the invariant: every kept facade sits under its own class name, with the client's URL, credentials, version and protocol, no transport, and a client bound to the client's endpoint |
| Client.FacadeEndpointFromDomain | magento/client.py:43-50 | for a client built from a bare domain, with or without a transport, a facade talks to the expanded domain, expanded once |
| Client.SecondAccessIsCached | magento/client.py:41-42 | a second read of an accessor returns the same facade and sends nothing |
| Client.KeptFacadeHasSession | magento/client.py:51 | the kept facade's session is exactly the token its login returned, so it is non-null whenever the server issues a non-null token |
| Client.CacheKeysDistinct | magento/client.py:84-96 | the eleven accessors keep their facades under distinct keys |
| Client.CacheKeysAvoidAttributes | magento/client.py:31 | no cache key shadows one of the connection's own attributes |
| Client.CacheKeyIsNotAttributeName | magento/client.py:31-41 | a cache key is never an accessor's attribute name, so every read goes through the lazy attribute |
| Client.AccessIsPerClient | magento/client.py:41-51 | after one client first reads an accessor, another client that had not kept that facade still builds its own and sends its own login on its next read, while the first client's next read sends nothing |
| Client.UseAccessor | magento/client.py:41-52 | `client.<accessor>.<method>()` fails as the read does if the read raises; otherwise it sends and returns what the facade call does, and the kept facade afterwards has the connection the call left it with; no other entry changes |
| Client.AccessKeepsResult | magento/client.py:51 | a successful read leaves the facade it returned under the accessor's key |
| Client.UseKeepsCoherent | magento/client.py:41-52 | calling any method on a kept facade keeps the client invariant |
| Client.KeptFacadeCallsOnly | magento/client.py:64-65 | using a kept facade's own method sends one call, with the facade's session, to the client's endpoint, no login, and leaves the client as it was |

## Left out

- The real transports are not modelled: `xmlrpclib.ServerProxy`, `suds.client.Client`, HTTP, TLS and WSDL fetching. A protocol client is a `Handle` recording its endpoint and options. The server is a function parameter that answers each request.
- Which protocols are installed (`PROTOCOLS`, found by trying imports) is a parameter `protocols` of construction.
- The `RLock` in `api_class_property` and thread interleavings are left out. The model is sequential.
- Values.IntOf: accepts only an optional sign followed by ASCII digits. Python's `int()` also accepts surrounding whitespace and non-ASCII digits, and truncates floats; replies are never floats in this model.
- Api.Construct: treats `str()` of the URL as the identity on text. The Python 2 distinction between byte and unicode strings is not modelled, and neither is the `UnicodeEncodeError` that `str()` raises on a non-ASCII unicode URL. The `assert` on the protocol name is modelled as always enabled; under `python -O` it is removed, and construction would then accept any name.
- The `warnings.warn` call in `ProductAttribute.createOption` is an effect outside the result, so it is left out.
- `magento/checkout.py`, `magento/directory.py` and `magento/miscellaneous.py` are not part of this model.
- The facades' docstrings, `__slots__`, module metadata, packaging, and the tests' live-server setup are left out.
- A custom `transport` object is an opaque token; what it does to requests is not modelled.
- Facades.CallMethod: covers the facade class's own methods and the five inherited `call`, `multiCall`, `connect`, `__enter__` and `__exit__`. Every other name is reported as `AttributeError`. In Python that is wrong for three groups of names: `__init__`, which runs construction again, resets `session` and `client` to `None` and returns `None`; the eight data attributes (`url`, `username`, `password`, `version`, `protocol`, `transport`, `session`, `client`), whose call raises `TypeError` because the value is not callable; and the methods inherited from `object`. None of these is part of the facade interface the model covers.
- Facades.Inherit: `connect` is modelled as always succeeding, because fetching the WSDL or building the proxy happens outside the model.
- Changes a caller makes to a kept facade's attributes directly, other than through its methods, are not modelled.
- Python exceptions other than those named in `Outcomes.Error` are left out, such as a `KeyboardInterrupt` during a call.

=== FILE: api.dfy ===
/**
 * The generic connection object `API` (magento/api.py): construction, URL
 * resolution, `connect`, the `with`-statement hooks `__enter__` / `__exit__`,
 * and the two generic remote operations `call` and `multiCall`.
 */
module Api {
  import opened Outcomes
  import opened Values
  import opened Urls
  import opened Remote

  /** The two wire protocols; which of them are installed is fixed when the library is imported. */
  datatype Protocol = XmlRpc | Soap

  function ProtocolName(p: Protocol): string {
    match p
    case XmlRpc => "xmlrpc"
    case Soap => "soap"
  }

  /** Defaults of the constructor's `version` and `protocol` parameters. */
  const DefaultVersion: string := "1.3.2.4"
  const DefaultProtocol: string := "xmlrpc"

  /** Whether `protocol` names one of the installed protocols (`protocol in PROTOCOLS`). */
  predicate Supports(protocols: set<Protocol>, protocol: string) {
    exists p | p in protocols :: ProtocolName(p) == protocol
  }

  /** The connection object's attributes. */
  datatype Conn = Conn(
    url: string,
    username: string,
    password: string,
    version: string,
    protocol: Protocol,
    transport: Option<Transport>,
    session: Value,
    client: Option<Handle>)

  /**
   * The stored endpoint, `full_url and url or expand_url(url, protocol)`.
   * Python's and/or idiom uses the given URL only when it is truthy, so an
   * empty URL is expanded even when `full_url` is set.
   */
  function ResolveUrl(url: string, fullUrl: bool, protocol: string): (r: string)
    ensures fullUrl && url != "" ==> r == url
    ensures !fullUrl || url == "" ==> r == ExpandUrl(url, protocol)
    ensures r != ""
  {
    ExpandUrlNonEmpty(url, protocol);
    if fullUrl && url != "" then url else ExpandUrl(url, protocol)
  }

  /** `API(url, username, password, version, full_url, protocol, transport)`. */
  function Construct(
    protocols: set<Protocol>, url: string, username: string, password: string,
    version: string, fullUrl: bool, protocol: string, transport: Option<Transport>): (r: Result<Conn>)
    ensures r.Ok? <==> Supports(protocols, protocol)
    ensures r.Err? ==> r.error == UnsupportedProtocol(protocol)
    ensures r.Ok? ==> && r.value.protocol in protocols
                      && ProtocolName(r.value.protocol) == protocol
                      && r.value.url == ResolveUrl(url, fullUrl, protocol)
                      && r.value.username == username
                      && r.value.password == password
                      && r.value.version == version
                      && r.value.transport == transport
                      && r.value.session == Nil
                      && r.value.client == None
  {
    if protocol == "xmlrpc" && XmlRpc in protocols then
      Ok(Conn(ResolveUrl(url, fullUrl, protocol), username, password, version, XmlRpc, transport, Nil, None))
    else if protocol == "soap" && Soap in protocols then
      Ok(Conn(ResolveUrl(url, fullUrl, protocol), username, password, version, Soap, transport, Nil, None))
    else
      Err(UnsupportedProtocol(protocol))
  }

  /** `connect()`: create the protocol client bound to the stored URL; no login, no session change. */
  function Connect(c: Conn): (r: Conn)
    ensures r == c.(client := r.client)
    ensures r.client.Some?
    ensures r.client.value.XmlRpcProxy? <==> c.protocol == XmlRpc
    ensures r.client.value.endpoint == c.url
    ensures r.client.value.XmlRpcProxy? ==> r.client.value.allowNone && r.client.value.transport == c.transport
  {
    match c.protocol
    case XmlRpc => c.(client := Some(XmlRpcProxy(c.url, true, c.transport)))
    case Soap => c.(client := Some(SoapClient(c.url)))
  }

  /** The connection `__enter__` logs in with: connected first only if it has no client. */
  function Connected(c: Conn): (r: Conn)
    ensures r.client.Some?
    ensures c.client.Some? ==> r == c
    ensures c.client.None? ==> r == Connect(c)
  {
    if c.client.None? then Connect(c) else c
  }

  function LoginEvent(c: Conn): Event {
    Event(Connected(c).client.value, Login(c.username, c.password))
  }

  /** A connection's state after a lifecycle step, and whether the step raised. */
  datatype Step = Step(conn: Conn, world: World, status: Status)

  /** `__enter__`: connect if needed, log in, keep the returned token as the session. */
  function Enter(c: Conn, w: World): (r: Step)
    ensures c.client.Some? ==> r.conn.client == c.client
    ensures c.client.None? ==> r.conn.client == Connect(c).client
    ensures r.world.server == w.server
    ensures r.world.log == w.log + [Event(r.conn.client.value, Login(c.username, c.password))]
    ensures var reply := w.server.answer(w.log, LoginEvent(c));
            && (r.status.Done? <==> reply.Answer?)
            && (reply.Answer? ==> r.conn.session == reply.value)
            && (reply.Raised? ==> r.conn.session == c.session
                                  && r.status == Failed(RemoteError(reply.code, reply.message)))
    ensures r.conn == c.(client := r.conn.client, session := r.conn.session)
  {
    var c1 := Connected(c);
    var sent := Send(w, LoginEvent(c));
    match sent.reply
    case Answer(token) => Step(c1.(session := token), sent.world, Done)
    case Raised(code, message) => Step(c1, sent.world, Failed(RemoteError(code, message)))
  }

  /**
   * `__exit__`: end the current session on the server, then forget it. When
   * `endSession` raises, the exception escapes before the session is cleared.
   */
  function Exit(c: Conn, w: World): (r: Step)
    ensures r.world.server == w.server
    ensures c.client.None? ==> r == Step(c, w, Failed(NoClient(if c.protocol == XmlRpc then "endSession" else "service")))
    ensures c.client.Some? ==>
              && r.world.log == w.log + [Event(c.client.value, EndSession(c.session))]
              && var reply := w.server.answer(w.log, Event(c.client.value, EndSession(c.session)));
                 && (r.status.Done? <==> reply.Answer?)
                 && (reply.Answer? ==> r.conn == c.(session := Nil))
                 && (reply.Raised? ==> r.conn == c && r.status == Failed(RemoteError(reply.code, reply.message)))
  {
    match c.client
    case None => Step(c, w, Failed(NoClient(if c.protocol == XmlRpc then "endSession" else "service")))
    case Some(h) =>
      var sent := Send(w, Event(h, EndSession(c.session)));
      match sent.reply
      case Answer(_) => Step(c.(session := Nil), sent.world, Done)
      case Raised(code, message) => Step(c, sent.world, Failed(RemoteError(code, message)))
  }

  /** The result of a remote operation that leaves the connection as it was. */
  datatype Exchange<T> = Exchange(world: World, result: Result<T>)

  /** `call(resource_path, arguments)`: forward the session and both arguments, return the reply untouched. */
  function Call(c: Conn, w: World, path: Value, args: Value): (r: Exchange<Value>)
    ensures r.world.server == w.server
    ensures c.client.None? ==> r == Exchange(w, Err(NoClient(if c.protocol == XmlRpc then "call" else "service")))
    ensures c.client.Some? ==>
              && r.world.log == w.log + [Event(c.client.value, Request.Call(c.session, path, args))]
              && r.result == AsResult(w.server.answer(w.log, Event(c.client.value, Request.Call(c.session, path, args))))
  {
    match c.client
    case None => Exchange(w, Err(NoClient(if c.protocol == XmlRpc then "call" else "service")))
    case Some(h) =>
      var sent := Send(w, Event(h, Request.Call(c.session, path, args)));
      Exchange(sent.world, AsResult(sent.reply))
  }

  /** `multiCall(calls)`: forward the session and the batch unchanged, return the reply untouched. */
  function MultiCall(c: Conn, w: World, calls: Value): (r: Exchange<Value>)
    ensures r.world.server == w.server
    ensures c.client.None? ==> r == Exchange(w, Err(NoClient(if c.protocol == XmlRpc then "multiCall" else "service")))
    ensures c.client.Some? ==>
              && r.world.log == w.log + [Event(c.client.value, Request.MultiCall(c.session, calls))]
              && r.result == AsResult(w.server.answer(w.log, Event(c.client.value, Request.MultiCall(c.session, calls))))
  {
    match c.client
    case None => Exchange(w, Err(NoClient(if c.protocol == XmlRpc then "multiCall" else "service")))
    case Some(h) =>
      var sent := Send(w, Event(h, Request.MultiCall(c.session, calls)));
      Exchange(sent.world, AsResult(sent.reply))
  }

  /**
   * A sequence of `call`s made through one connection, stopping at the first
   * one that raises; the results come back in the order the calls were made.
   */
  function RunCalls(c: Conn, w: World, calls: seq<(string, Value)>): (r: Exchange<seq<Value>>)
    decreases |calls|
    ensures r.world.server == w.server
    ensures |w.log| <= |r.world.log| <= |w.log| + |calls|
    ensures r.world.log[..|w.log|] == w.log
    ensures c.client.None? && calls != [] ==> r == Exchange(w, Err(NoClient(if c.protocol == XmlRpc then "call" else "service")))
    ensures r.result.Ok? ==> |r.result.value| == |calls| && |r.world.log| == |w.log| + |calls|
  {
    if calls == [] then Exchange(w, Ok([]))
    else
      var first := Call(c, w, Str(calls[0].0), calls[0].1);
      if first.result.Err? then Exchange(first.world, Err(first.result.error))
      else
        var rest := RunCalls(c, first.world, calls[1..]);
        assert rest.world.log[..|w.log|] == w.log by {
          assert rest.world.log[..|w.log| + 1] == first.world.log;
          assert first.world.log[..|w.log|] == w.log;
        }
        if rest.result.Err? then Exchange(rest.world, Err(rest.result.error))
        else
          Exchange(rest.world, Ok([first.result.value] + rest.result.value))
  }

  /** The request a series of calls makes for its `k`-th call. */
  function CallEvent(c: Conn, calls: seq<(string, Value)>, k: nat): Event
    requires c.client.Some? && k < |calls|
  {
    Event(c.client.value, Request.Call(c.session, Str(calls[k].0), calls[k].1))
  }

  /** Every request a series of calls appends is the next call, with the connection's session. */
  lemma {:induction false} RunCallsEvents(c: Conn, w: World, calls: seq<(string, Value)>)
    decreases |calls|
    ensures forall i :: |w.log| <= i < |RunCalls(c, w, calls).world.log| ==>
              c.client.Some? && RunCalls(c, w, calls).world.log[i] == CallEvent(c, calls, i - |w.log|)
  {
    var r := RunCalls(c, w, calls);
    if calls != [] && c.client.Some? {
      var first := Call(c, w, Str(calls[0].0), calls[0].1);
      if first.result.Ok? {
        var rest := RunCalls(c, first.world, calls[1..]);
        RunCallsEvents(c, first.world, calls[1..]);
        assert r.world == rest.world;
        forall i | |w.log| <= i < |r.world.log|
          ensures r.world.log[i] == CallEvent(c, calls, i - |w.log|)
        {
          if i == |w.log| {
            assert rest.world.log[..|w.log| + 1] == first.world.log;
            assert r.world.log[i] == first.world.log[i];
          } else {
            assert |first.world.log| == |w.log| + 1;
            assert rest.world.log[i] == CallEvent(c, calls[1..], i - |first.world.log|);
            assert calls[1..][i - |first.world.log|] == calls[i - |w.log|];
          }
        }
      }
    }
  }

  /** When no call raised, each result is the server's answer to its own request. */
  lemma {:induction false} RunCallsAnswers(c: Conn, w: World, calls: seq<(string, Value)>)
    decreases |calls|
    ensures RunCalls(c, w, calls).result.Ok? ==>
              forall i :: 0 <= i < |calls| ==>
                w.server.answer(RunCalls(c, w, calls).world.log[..|w.log| + i], RunCalls(c, w, calls).world.log[|w.log| + i])
                == Answer(RunCalls(c, w, calls).result.value[i])
  {
    var r := RunCalls(c, w, calls);
    if calls != [] && r.result.Ok? {
      var first := Call(c, w, Str(calls[0].0), calls[0].1);
      var rest := RunCalls(c, first.world, calls[1..]);
      RunCallsAnswers(c, first.world, calls[1..]);
      assert r.world == rest.world && r.result.value == [first.result.value] + rest.result.value;
      assert rest.world.log[..|w.log| + 1] == first.world.log;
      forall i | 0 <= i < |calls|
        ensures w.server.answer(r.world.log[..|w.log| + i], r.world.log[|w.log| + i]) == Answer(r.result.value[i])
      {
        if i == 0 {
          assert r.world.log[|w.log|] == first.world.log[|w.log|];
        } else {
          assert |first.world.log| + (i - 1) == |w.log| + i;
          assert w.server.answer(rest.world.log[..|first.world.log| + (i - 1)], rest.world.log[|first.world.log| + (i - 1)])
                 == Answer(rest.result.value[i - 1]);
          assert r.result.value[i] == rest.result.value[i - 1];
        }
      }
    }
  }

  /**
   * When a call raised on a connected client, every earlier call was
   * answered and the series' outcome is the fault of its last request.
   */
  lemma {:induction false} RunCallsFault(c: Conn, w: World, calls: seq<(string, Value)>)
    decreases |calls|
    ensures RunCalls(c, w, calls).result.Err? && c.client.Some? ==>
              |RunCalls(c, w, calls).world.log| > |w.log|
    ensures RunCalls(c, w, calls).result.Err? && c.client.Some? ==>
              forall i :: |w.log| <= i < |RunCalls(c, w, calls).world.log| - 1 ==>
                w.server.answer(RunCalls(c, w, calls).world.log[..i], RunCalls(c, w, calls).world.log[i]).Answer?
    ensures var r := RunCalls(c, w, calls);
            r.result.Err? && c.client.Some? ==>
              && |r.world.log| > |w.log|
              && var failed := w.server.answer(r.world.log[..|r.world.log| - 1], r.world.log[|r.world.log| - 1]);
                 failed.Raised? && r.result.error == RemoteError(failed.code, failed.message)
  {
    var r := RunCalls(c, w, calls);
    if calls != [] && r.result.Err? && c.client.Some? {
      var first := Call(c, w, Str(calls[0].0), calls[0].1);
      if first.result.Err? {
        assert r.world.log[..|r.world.log| - 1] == w.log;
      } else {
        var rest := RunCalls(c, first.world, calls[1..]);
        RunCallsFault(c, first.world, calls[1..]);
        assert r.world == rest.world && r.result == rest.result;
        assert rest.world.log[..|w.log| + 1] == first.world.log;
        forall i | |w.log| <= i < |r.world.log| - 1
          ensures w.server.answer(r.world.log[..i], r.world.log[i]).Answer?
        {
          if i == |w.log| {
            assert r.world.log[..i] == w.log;
            assert r.world.log[i] == first.world.log[|w.log|];
          }
        }
      }
    }
  }

  /** The connection, log and outcome after a `with` block. */
  datatype Scoped = Scoped(conn: Conn, world: World, result: Result<seq<Value>>)

  /**
   * `with API(...) as api: <calls>`: enter, run the calls, and exit whether or
   * not a call raised. If `__enter__` raises, `__exit__` does not run; if
   * `__exit__` raises, its exception replaces the block's outcome.
   */
  function WithBlock(c: Conn, w: World, calls: seq<(string, Value)>): (r: Scoped)
    ensures r.world.server == w.server
    ensures |r.world.log| > |w.log| && r.world.log[..|w.log|] == w.log && r.world.log[|w.log|] == LoginEvent(c)
    ensures var login := w.server.answer(w.log, LoginEvent(c));
            login.Raised? ==> && r.world.log == w.log + [LoginEvent(c)]
                              && r.conn == Connected(c)
                              && r.result == Err(RemoteError(login.code, login.message))
  {
    var entered := Enter(c, w);
    if entered.status.Failed? then Scoped(entered.conn, entered.world, Err(entered.status.error))
    else
      var body := RunCalls(entered.conn, entered.world, calls);
      var exited := Exit(entered.conn, body.world);
      Scoped(exited.conn, exited.world, if exited.status.Failed? then Err(exited.status.error) else body.result)
  }

  /** The server's reply to the last request of a non-empty log. */
  function LastReply(w: World, log: seq<Event>): Reply
    requires |log| > 0
  {
    w.server.answer(log[..|log| - 1], log[|log| - 1])
  }

  /** The three phases of a `with` block whose login was answered, as the log records them. */
  lemma WithBlockPhases(c: Conn, w: World, calls: seq<(string, Value)>)
    requires w.server.answer(w.log, LoginEvent(c)).Answer?
    ensures var token := w.server.answer(w.log, LoginEvent(c)).value;
            var entered := Enter(c, w);
            var body := RunCalls(entered.conn, entered.world, calls);
            var r := WithBlock(c, w, calls);
            && entered.status.Done?
            && entered.conn == Connected(c).(session := token)
            && entered.world.log == w.log + [LoginEvent(c)]
            && r.world.log == body.world.log + [Event(Connected(c).client.value, EndSession(token))]
            && r.world.log[..|r.world.log| - 1] == body.world.log
            && LastReply(w, r.world.log) == w.server.answer(body.world.log, Event(Connected(c).client.value, EndSession(token)))
            && (LastReply(w, r.world.log).Answer? ==> r.conn == Connected(c).(session := Nil) && r.result == body.result)
            && (LastReply(w, r.world.log).Raised? ==>
                  && r.conn == Connected(c).(session := token)
                  && r.result == Err(RemoteError(LastReply(w, r.world.log).code, LastReply(w, r.world.log).message)))
  {
    var entered := Enter(c, w);
    assert entered.conn.client == Connected(c).client;
  }

  /**
   * After an answered login, only the block's calls follow it, in order and
   * carrying the token, and the block ends with one `endSession(token)`.
   */
  lemma {:induction false} WithBlockLog(c: Conn, w: World, calls: seq<(string, Value)>)
    requires w.server.answer(w.log, LoginEvent(c)).Answer?
    ensures var token := w.server.answer(w.log, LoginEvent(c)).value;
            var h := Connected(c).client.value;
            var log := WithBlock(c, w, calls).world.log;
            && |w.log| + 2 <= |log| <= |w.log| + 2 + |calls|
            && log[|log| - 1] == Event(h, EndSession(token))
            && forall i :: |w.log| < i < |log| - 1 ==>
                 log[i] == Event(h, Request.Call(token, Str(calls[i - |w.log| - 1].0), calls[i - |w.log| - 1].1))
  {
    WithBlockPhases(c, w, calls);
    var token := w.server.answer(w.log, LoginEvent(c)).value;
    var h := Connected(c).client.value;
    var entered := Enter(c, w);
    var body := RunCalls(entered.conn, entered.world, calls);
    var log := WithBlock(c, w, calls).world.log;
    RunCallsEvents(entered.conn, entered.world, calls);
    forall i | |w.log| < i < |log| - 1
      ensures log[i] == Event(h, Request.Call(token, Str(calls[i - |w.log| - 1].0), calls[i - |w.log| - 1].1))
    {
      assert log[i] == body.world.log[i];
    }
  }

  /**
   * When the block's `endSession` is answered and every call was, there is
   * one result per call, each the server's answer to its own request.
   */
  lemma {:induction false} WithBlockResults(c: Conn, w: World, calls: seq<(string, Value)>)
    requires w.server.answer(w.log, LoginEvent(c)).Answer?
    ensures var r := WithBlock(c, w, calls);
            var n := |w.log| + 1;
            LastReply(w, r.world.log).Answer? && r.result.Ok? ==>
              && |r.result.value| == |calls|
              && |r.world.log| == n + |calls| + 1
              && forall i :: 0 <= i < |calls| ==>
                   w.server.answer(r.world.log[..n + i], r.world.log[n + i]) == Answer(r.result.value[i])
  {
    WithBlockPhases(c, w, calls);
    var entered := Enter(c, w);
    var body := RunCalls(entered.conn, entered.world, calls);
    var r := WithBlock(c, w, calls);
    var n := |w.log| + 1;
    RunCallsAnswers(entered.conn, entered.world, calls);
    if LastReply(w, r.world.log).Answer? && r.result.Ok? {
      forall i | 0 <= i < |calls|
        ensures w.server.answer(r.world.log[..n + i], r.world.log[n + i]) == Answer(r.result.value[i])
      {
        assert r.world.log[..n + i] == body.world.log[..n + i];
        assert r.world.log[n + i] == body.world.log[n + i];
      }
    }
  }

  /**
   * When the block's `endSession` is answered but a call raised, the block's
   * outcome is that call's fault: the request just before `endSession`.
   */
  lemma {:induction false} WithBlockFault(c: Conn, w: World, calls: seq<(string, Value)>)
    requires w.server.answer(w.log, LoginEvent(c)).Answer?
    ensures var r := WithBlock(c, w, calls);
            LastReply(w, r.world.log).Answer? && r.result.Err? ==>
              && |r.world.log| >= |w.log| + 3
              && var failed := LastReply(w, r.world.log[..|r.world.log| - 1]);
                 failed.Raised? && r.result.error == RemoteError(failed.code, failed.message)
  {
    WithBlockPhases(c, w, calls);
    var entered := Enter(c, w);
    var body := RunCalls(entered.conn, entered.world, calls);
    var r := WithBlock(c, w, calls);
    RunCallsFault(entered.conn, entered.world, calls);
    if LastReply(w, r.world.log).Answer? && r.result.Err? {
      assert r.world.log[..|r.world.log| - 1] == body.world.log;
    }
  }

  /** A connection left by `__exit__` can be entered again: same client, a fresh login. */
  lemma ReenterAfterExit(c: Conn, w: World)
    requires c.client.Some?
    ensures var out := Exit(c, w);
            var again := Enter(out.conn, out.world);
            && again.conn.client == c.client
            && again.world.log == w.log + [Event(c.client.value, EndSession(c.session)),
                                           Event(c.client.value, Login(c.username, c.password))]
  {
  }

  /** `API(url, username, password)` connects to magento 1.3.2.4 over XML-RPC at the expanded base URL. */
  lemma ConstructWithDefaults(protocols: set<Protocol>, url: string, username: string, password: string)
    requires XmlRpc in protocols
    ensures var r := Construct(protocols, url, username, password, DefaultVersion, false, DefaultProtocol, None);
            && r.Ok?
            && r.value.version == "1.3.2.4"
            && r.value.protocol == XmlRpc
            && r.value.url == ExpandUrl(url, "xmlrpc")
            && r.value.transport == None
  {
    assert ProtocolName(XmlRpc) == DefaultProtocol;
  }
}

=== FILE: catalog.dfy ===
/**
 * The catalog facades (magento/catalog.py): for each class, the methods it
 * has by name, with their parameters, remote resource path, argument layout
 * and reply coercion. A method alias names the very same rule as its original.
 */
module Catalog {
  import opened Outcomes
  import opened Values
  import opened Marshal

  datatype Class =
    | Category | CategoryAttribute | Product | ProductAttribute | ProductAttributeSet
    | ProductTypes | ProductImages | ProductTierPrice | ProductLinks | ProductConfigurable | Inventory

  /** The Python class name, `klass.__name__`. */
  function ClassName(c: Class): string {
    match c
    case Category => "Category"
    case CategoryAttribute => "CategoryAttribute"
    case Product => "Product"
    case ProductAttribute => "ProductAttribute"
    case ProductAttributeSet => "ProductAttributeSet"
    case ProductTypes => "ProductTypes"
    case ProductImages => "ProductImages"
    case ProductTierPrice => "ProductTierPrice"
    case ProductLinks => "ProductLinks"
    case ProductConfigurable => "ProductConfigurable"
    case Inventory => "Inventory"
  }

  const StoreView: Param := Optional("store_view", Nil)

  // Category
  const CategoryCurrentStore: Method := CurrentStore("catalog_category")
  const CategoryTree: Method :=
    Forward("catalog_category.tree", [Optional("parent_id", Nil), StoreView], Raw)
  const CategoryLevel: Method :=
    Forward("catalog_category.level", [Optional("website", Nil), StoreView, Optional("parent_category", Nil)], Raw)
  const CategoryInfo: Method :=
    Forward("catalog_category.info", [Required("category_id"), StoreView, Optional("attributes", Nil)], Raw)
  const CategoryCreate: Method :=
    Forward("catalog_category.create", [Required("parent_id"), Required("data"), StoreView], AsInt)
  const CategoryUpdate: Method :=
    Forward("catalog_category.update", [Required("category_id"), Required("data"), StoreView], AsBool)
  const CategoryMove: Method :=
    Forward("catalog_category.move", [Required("category_id"), Required("parent_id"), Optional("after_id", Nil)], AsBool)
  const CategoryDelete: Method :=
    Forward("catalog_category.delete", [Required("category_id")], AsBool)
  const CategoryAssignedProducts: Method :=
    Forward("catalog_category.assignedProducts", [Required("category_id"), Required("store")], Raw)
  const CategoryAssignProduct: Method :=
    Forward("catalog_category.assignProduct", [Required("category_id"), Required("product"), Optional("position", Nil)], AsBool)
  const CategoryUpdateProduct: Method :=
    Forward("catalog_category.updateProduct", [Required("category_id"), Required("product"), Optional("position", Nil)], AsBool)
  const CategoryRemoveProduct: Method :=
    Forward("catalog_category.removeProduct", [Required("category_id"), Required("product")], AsBool)

  // CategoryAttribute
  const CategoryAttributeCurrentStore: Method := CurrentStore("catalog_category_attribute")
  const CategoryAttributeList: Method := Forward("category_attribute.list", [], Raw)
  const CategoryAttributeOptions: Method :=
    Forward("category_attribute.options", [Required("attribute_id"), StoreView], Raw)

  // Product
  const ProductCurrentStore: Method := CurrentStore("catalog_product")
  const ProductList: Method := Forward("catalog_product.list", [Optional("filters", Nil), StoreView], Raw)
  const ProductInfo: Method :=
    Forward("catalog_product.info", [Required("product"), StoreView, Optional("attributes", Nil)], Raw)
  const ProductCreate: Method :=
    Forward("catalog_product.create",
            [Required("product_type"), Required("attribute_set_id"), Required("sku"), Required("data")], AsInt)
  const ProductUpdate: Method :=
    Forward("catalog_product.update", [Required("product"), Required("data"), StoreView], AsBool)
  const ProductSetSpecialPrice: Method :=
    Forward("catalog_product.setSpecialPrice",
            [Required("product"), Optional("special_price", Nil), Optional("from_date", Nil),
             Optional("to_date", Nil), StoreView], AsBool)
  const ProductGetSpecialPrice: Method :=
    Forward("catalog_product.getSpecialPrice", [Required("product"), StoreView], Raw)
  const ProductDelete: Method := Forward("catalog_product.delete", [Required("product")], AsBool)

  // ProductAttribute
  const AttributeCurrentStore: Method := CurrentStore("catalog_product_attribute")
  const AttributeList: Method := Forward("catalog_product_attribute.list", [Required("attribute_set_id")], Raw)
  const AttributeInfo: Method := Forward("catalog_product_attribute.info", [Required("attribute")], Raw)
  const AttributeOptions: Method :=
    Forward("catalog_product_attribute.options", [Required("attribute"), StoreView], Raw)
  const AttributeAddOption: Method :=
    Forward("product_attribute.addOption", [Required("attribute"), Required("data")], AsBool)
  const AttributeRemoveOption: Method :=
    Forward("product_attribute.removeOption", [Required("attribute"), Required("option")], AsBool)
  const AttributeCreate: Method := Forward("catalog_product_attribute.create", [Required("data")], Raw)
  const AttributeUpdate: Method :=
    Forward("catalog_product_attribute.update", [Required("attribute"), Required("data")], Raw)

  // ProductAttributeSet
  const AttributeSetList: Method := Forward("catalog_product_attribute_set.list", [], Raw)
  const AttributeSetCreate: Method :=
    Forward("catalog_product_attribute_set.create", [Required("attribute_set_name"), Required("skeleton_set_id")], Raw)
  const AttributeSetAttributeAdd: Method :=
    Forward("catalog_product_attribute_set.attributeAdd", [Required("attribute_id"), Required("attribute_set_id")], Raw)
  const AttributeSetAttributeRemove: Method :=
    Forward("catalog_product_attribute_set.attributeRemove", [Required("attribute_id"), Required("attribute_set_id")], Raw)

  // ProductTypes
  const TypesList: Method := Forward("catalog_product_type.list", [], Raw)

  // ProductImages
  const ImagesCurrentStore: Method := CurrentStore("catalog_product_attribute_media")
  const ImagesList: Method := Forward("catalog_product_attribute_media.list", [Required("product"), StoreView], Raw)
  const ImagesInfo: Method :=
    Forward("catalog_product_attribute_media.info", [Required("product"), Required("image_file"), StoreView], Raw)
  const ImagesTypes: Method := Forward("catalog_product_attribute_media.types", [Required("attribute_set_id")], Raw)
  const ImagesCreate: Method :=
    Forward("catalog_product_attribute_media.create", [Required("product"), Required("data"), StoreView], Raw)
  const ImagesUpdate: Method :=
    Forward("catalog_product_attribute_media.update",
            [Required("product"), Required("img_file_name"), Required("data"), StoreView], Raw)
  const ImagesRemove: Method :=
    Forward("catalog_product_attribute_media.remove", [Required("product"), Required("img_file_name")], Raw)

  // ProductTierPrice
  const TierPriceInfo: Method := Forward("catalog_product_attribute_tier_price.info", [Required("product")], Raw)
  const TierPriceUpdate: Method :=
    Forward("catalog_product_attribute_tier_price.update", [Required("product"), Required("data")], AsBool)

  // ProductLinks
  const LinksList: Method := Forward("catalog_product_link.list", [Required("link_type"), Required("product")], Raw)
  const LinksAssign: Method :=
    Forward("catalog_product_link.assign",
            [Required("link_type"), Required("product"), Required("linked_product"), Optional("data", Nil)], AsBool)
  const LinksUpdate: Method :=
    Forward("catalog_product_link.update",
            [Required("link_type"), Required("product"), Required("linked_product"), Optional("data", Nil)], AsBool)
  const LinksRemove: Method :=
    Forward("catalog_product_link.remove", [Required("link_type"), Required("product"), Required("linked_product")], AsBool)
  const LinksTypes: Method := Forward("catalog_product_link.types", [], Raw)
  const LinksAttributes: Method := Forward("catalog_product_link.attributes", [Required("link_type")], Raw)

  // ProductConfigurable
  const ConfigurableInfo: Method := Forward("ol_catalog_product_link.list", [Required("product")], Raw)
  const ConfigurableGetSuperAttributes: Method :=
    Forward("ol_catalog_product_link.listSuperAttributes", [Required("product")], Raw)
  const ConfigurableSetSuperAttributeValues: Method :=
    Forward("ol_catalog_product_link.setSuperAttributeValues", [Required("product"), Required("attribute")], Raw)
  const ConfigurableUpdate: Method :=
    Forward("ol_catalog_product_link.assign", [Required("product"), Required("linked_products"), Required("attributes")], AsBool)
  const ConfigurableRemove: Method :=
    Forward("ol_catalog_product_link.remove", [Required("product"), Required("linked_products")], AsBool)

  // Inventory
  const InventoryList: Method := Forward("cataloginventory_stock_item.list", [Required("products")], Raw)
  const InventoryUpdate: Method :=
    Forward("cataloginventory_stock_item.update", [Required("product"), Required("data")], AsBool)

  /** The method a catalog facade has under `name`, if any. */
  function Lookup(c: Class, name: string): Option<Method> {
    match c
    case Category =>
      (match name
       case "currentStore" => Some(CategoryCurrentStore)
       case "tree" => Some(CategoryTree)
       case "level" => Some(CategoryLevel)
       case "info" => Some(CategoryInfo)
       case "create" => Some(CategoryCreate)
       case "update" => Some(CategoryUpdate)
       case "move" => Some(CategoryMove)
       case "delete" => Some(CategoryDelete)
       case "assignedproducts" => Some(CategoryAssignedProducts)
       case "assigned_products" => Some(CategoryAssignedProducts)
       case "assignproduct" => Some(CategoryAssignProduct)
       case "assign_product" => Some(CategoryAssignProduct)
       case "updateproduct" => Some(CategoryUpdateProduct)
       case "update_product" => Some(CategoryUpdateProduct)
       case "removeproduct" => Some(CategoryRemoveProduct)
       case "remove_product" => Some(CategoryRemoveProduct)
       case _ => None)
    case CategoryAttribute =>
      (match name
       case "currentStore" => Some(CategoryAttributeCurrentStore)
       case "list" => Some(CategoryAttributeList)
       case "options" => Some(CategoryAttributeOptions)
       case _ => None)
    case Product =>
      (match name
       case "currentStore" => Some(ProductCurrentStore)
       case "list" => Some(ProductList)
       case "info" => Some(ProductInfo)
       case "create" => Some(ProductCreate)
       case "update" => Some(ProductUpdate)
       case "setSpecialPrice" => Some(ProductSetSpecialPrice)
       case "getSpecialPrice" => Some(ProductGetSpecialPrice)
       case "delete" => Some(ProductDelete)
       case _ => None)
    case ProductAttribute =>
      (match name
       case "currentStore" => Some(AttributeCurrentStore)
       case "list" => Some(AttributeList)
       case "info" => Some(AttributeInfo)
       case "options" => Some(AttributeOptions)
       case "addOption" => Some(AttributeAddOption)
       // createOption(*a, **kw) hands all of its arguments to addOption
       case "createOption" => Some(AttributeAddOption)
       case "removeOption" => Some(AttributeRemoveOption)
       case "create" => Some(AttributeCreate)
       case "update" => Some(AttributeUpdate)
       case _ => None)
    case ProductAttributeSet =>
      (match name
       case "list" => Some(AttributeSetList)
       case "create" => Some(AttributeSetCreate)
       case "attributeAdd" => Some(AttributeSetAttributeAdd)
       case "attributeRemove" => Some(AttributeSetAttributeRemove)
       case _ => None)
    case ProductTypes =>
      (match name
       case "list" => Some(TypesList)
       case _ => None)
    case ProductImages =>
      (match name
       case "currentStore" => Some(ImagesCurrentStore)
       case "list" => Some(ImagesList)
       case "info" => Some(ImagesInfo)
       case "types" => Some(ImagesTypes)
       case "create" => Some(ImagesCreate)
       case "update" => Some(ImagesUpdate)
       case "remove" => Some(ImagesRemove)
       case _ => None)
    case ProductTierPrice =>
      (match name
       case "info" => Some(TierPriceInfo)
       case "update" => Some(TierPriceUpdate)
       case _ => None)
    case ProductLinks =>
      (match name
       case "list" => Some(LinksList)
       case "assign" => Some(LinksAssign)
       case "update" => Some(LinksUpdate)
       case "remove" => Some(LinksRemove)
       case "types" => Some(LinksTypes)
       case "attributes" => Some(LinksAttributes)
       case _ => None)
    case ProductConfigurable =>
      (match name
       case "info" => Some(ConfigurableInfo)
       case "getSuperAttributes" => Some(ConfigurableGetSuperAttributes)
       case "setSuperAttributeValues" => Some(ConfigurableSetSuperAttributeValues)
       case "update" => Some(ConfigurableUpdate)
       case "remove" => Some(ConfigurableRemove)
       case _ => None)
    case Inventory =>
      (match name
       case "list" => Some(InventoryList)
       case "update" => Some(InventoryUpdate)
       case _ => None)
  }

  /** The five store-scoped facades send `[store_view]` only when it is truthy and return `int(...)`. */
  lemma CurrentStoreRule(c: Class)
    requires c in {Category, CategoryAttribute, Product, ProductAttribute, ProductImages}
    ensures Lookup(c, "currentStore").Some?
    ensures var m := Lookup(c, "currentStore").value;
            && m.shape == StoreViewIfSet && m.coercion == AsInt
            && m.params == [Optional("store_view", Nil)]
  {
  }

  /** The underscore spellings are the same methods as the originals. */
  lemma CategoryAliases()
    ensures Lookup(Category, "assigned_products") == Lookup(Category, "assignedproducts")
    ensures Lookup(Category, "assign_product") == Lookup(Category, "assignproduct")
    ensures Lookup(Category, "update_product") == Lookup(Category, "updateproduct")
    ensures Lookup(Category, "remove_product") == Lookup(Category, "removeproduct")
    ensures Lookup(Category, "assignedproducts").Some?
  {
  }

  /** The deprecated `createOption` sends what `addOption` sends and returns a bool as it does. */
  lemma CreateOptionIsAddOption()
    ensures Lookup(ProductAttribute, "createOption") == Lookup(ProductAttribute, "addOption")
    ensures Lookup(ProductAttribute, "addOption") == Some(AttributeAddOption)
    ensures AttributeAddOption.coercion == AsBool
  {
  }

  /** `Category.tree` always sends two arguments, `None` ones included. */
  lemma CategoryTreeSendsTwo(parentId: Value, storeView: Value)
    ensures Bind(CategoryTree.params, [], map[]) == Ok([Nil, Nil])
    ensures Args(CategoryTree.shape, [parentId, storeView]) == List([parentId, storeView])
  {
    BindWithDefaults(CategoryTree.params, [], [Nil, Nil]);
  }
}

=== FILE: client.dfy ===
/**
 * `Client` (magento/client.py): a connection object whose catalog facades are
 * lazy attributes. The first access to an accessor builds the facade from the
 * client's own attributes, logs it in and keeps it in the client's instance
 * dictionary; every later access returns what was kept.
 */
module Client {
  import opened Outcomes
  import opened Values
  import opened Urls
  import opened Remote
  import opened Api
  import opened Facades
  import Catalog

  /** The eleven lazy attributes of `Client`. */
  datatype Accessor =
    | CatalogCategory | CatalogCategoryAttribute | CatalogProduct | CatalogProductAttribute
    | CatalogProductAttributeSet | CatalogProductType | CatalogProductAttributeMedia
    | CatalogProductAttributeTierPrice | CatalogProductLink | CataloginventoryStockItem | OlCatalogProductLink

  /** The attribute name the accessor is reached by. */
  function AttributeName(a: Accessor): string {
    match a
    case CatalogCategory => "catalog_category"
    case CatalogCategoryAttribute => "catalog_category_attribute"
    case CatalogProduct => "catalog_product"
    case CatalogProductAttribute => "catalog_product_attribute"
    case CatalogProductAttributeSet => "catalog_product_attribute_set"
    case CatalogProductType => "catalog_product_type"
    case CatalogProductAttributeMedia => "catalog_product_attribute_media"
    case CatalogProductAttributeTierPrice => "catalog_product_attribute_tier_price"
    case CatalogProductLink => "catalog_product_link"
    case CataloginventoryStockItem => "cataloginventory_stock_item"
    case OlCatalogProductLink => "ol_catalog_product_link"
  }

  /** The facade class each accessor wraps. */
  function ClassOf(a: Accessor): Catalog.Class {
    match a
    case CatalogCategory => Catalog.Category
    case CatalogCategoryAttribute => Catalog.CategoryAttribute
    case CatalogProduct => Catalog.Product
    case CatalogProductAttribute => Catalog.ProductAttribute
    case CatalogProductAttributeSet => Catalog.ProductAttributeSet
    case CatalogProductType => Catalog.ProductTypes
    case CatalogProductAttributeMedia => Catalog.ProductImages
    case CatalogProductAttributeTierPrice => Catalog.ProductTierPrice
    case CatalogProductLink => Catalog.ProductLinks
    case CataloginventoryStockItem => Catalog.Inventory
    case OlCatalogProductLink => Catalog.ProductConfigurable
  }

  /** No accessor is given a name, so its cache key is the wrapped class's `__name__`. */
  function CacheKey(a: Accessor): string {
    ClassName(CatalogClass(ClassOf(a)))
  }

  /** A facade object: its class and its own connection. */
  datatype Instance = Instance(cls: FacadeClass, conn: Conn)

  /** A client: its own connection attributes and the facades kept in its instance dictionary. */
  datatype ClientState = ClientState(api: Conn, cache: map<string, Instance>)

  /** `Client(url, username, password, version, full_url, protocol, transport)`: the constructor of `API`. */
  function NewClient(
    protocols: set<Protocol>, url: string, username: string, password: string,
    version: string, fullUrl: bool, protocol: string, transport: Option<Transport>): (r: Result<ClientState>)
    ensures r.Ok? <==> Supports(protocols, protocol)
    ensures r.Err? ==> r.error == UnsupportedProtocol(protocol)
    ensures r.Ok? ==> && r.value.cache == map[]
                      && r.value.api == Construct(protocols, url, username, password, version, fullUrl, protocol, transport).value
  {
    match Construct(protocols, url, username, password, version, fullUrl, protocol, transport)
    case Ok(conn) => Ok(ClientState(conn, map[]))
    case Err(e) => Err(e)
  }

  /** `klass(obj.url, obj.username, obj.password, obj.version, True, obj.protocol)`: no transport is passed on. */
  function BuildFacade(protocols: set<Protocol>, c: ClientState): Result<Conn> {
    Construct(protocols, c.api.url, c.api.username, c.api.password, c.api.version, true,
              ProtocolName(c.api.protocol), None)
  }

  /** The client after an accessor was read, the remote log, and the facade or the exception raised. */
  datatype Fetched = Fetched(client: ClientState, world: World, result: Result<Instance>)

  /**
   * `client.<accessor>`: the kept facade if there is one; otherwise build it,
   * `__enter__` it and keep the entered object. An exception while building
   * or logging in leaves nothing kept.
   */
  function Access(protocols: set<Protocol>, c: ClientState, w: World, a: Accessor): (r: Fetched)
    ensures r.world.server == w.server
    ensures r.client.api == c.api
    ensures CacheKey(a) in c.cache ==> r == Fetched(c, w, Ok(c.cache[CacheKey(a)]))
    ensures CacheKey(a) !in c.cache && c.api.protocol !in protocols ==>
              r == Fetched(c, w, Err(UnsupportedProtocol(ProtocolName(c.api.protocol))))
    ensures CacheKey(a) !in c.cache && c.api.protocol in protocols ==>
              var built := BuildFacade(protocols, c).value;
              var login := w.server.answer(w.log, LoginEvent(built));
              && r.world.log == w.log + [LoginEvent(built)]
              && (login.Answer? ==>
                    && r.result.Ok?
                    && r.result.value == Instance(CatalogClass(ClassOf(a)), Connect(built).(session := login.value))
                    && r.client.cache == c.cache[CacheKey(a) := r.result.value])
              && (login.Raised? ==> r.client == c && r.result == Err(RemoteError(login.code, login.message)))
    ensures forall k :: k != CacheKey(a) ==>
              (k in r.client.cache <==> k in c.cache) && (k in c.cache ==> r.client.cache[k] == c.cache[k])
  {
    var key := CacheKey(a);
    if key in c.cache then Fetched(c, w, Ok(c.cache[key]))
    else
      match BuildFacade(protocols, c)
      case Err(e) => Fetched(c, w, Err(e))
      case Ok(built) =>
        var entered := Enter(built, w);
        match entered.status
        case Failed(e) => Fetched(c, entered.world, Err(e))
        case Done =>
          var inst := Instance(CatalogClass(ClassOf(a)), entered.conn);
          Fetched(c.(cache := c.cache[key := inst]), entered.world, Ok(inst))
  }

  /** What a kept facade must look like for the accessor `a` of client `c`. */
  predicate EntryFits(c: ClientState, a: Accessor, inst: Instance) {
    && inst.cls == CatalogClass(ClassOf(a))
    && inst.conn.url == c.api.url
    && inst.conn.username == c.api.username
    && inst.conn.password == c.api.password
    && inst.conn.version == c.api.version
    && inst.conn.protocol == c.api.protocol
    && inst.conn.transport == None
    && inst.conn.client.Some?
    && inst.conn.client.value.endpoint == c.api.url
  }

  /**
   * The client invariant: its URL is resolved (never empty), and every kept
   * facade sits under its accessor's key and was built from the client's attributes.
   */
  predicate Coherent(protocols: set<Protocol>, c: ClientState) {
    && c.api.protocol in protocols
    && c.api.url != ""
    && forall k :: k in c.cache ==> exists a :: CacheKey(a) == k && EntryFits(c, a, c.cache[k])
  }

  lemma NewClientCoherent(
    protocols: set<Protocol>, url: string, username: string, password: string,
    version: string, fullUrl: bool, protocol: string, transport: Option<Transport>)
    requires NewClient(protocols, url, username, password, version, fullUrl, protocol, transport).Ok?
    ensures Coherent(protocols, NewClient(protocols, url, username, password, version, fullUrl, protocol, transport).value)
  {
  }

  /**
   * Because the facade is built with `full_url=True` from the already
   * resolved URL, it talks to exactly the client's endpoint: no second expansion.
   */
  lemma FacadeUrlIsClientUrl(protocols: set<Protocol>, c: ClientState)
    requires Coherent(protocols, c)
    ensures BuildFacade(protocols, c).Ok?
    ensures BuildFacade(protocols, c).value.url == c.api.url
  {
    assert Supports(protocols, ProtocolName(c.api.protocol));
  }

  /** Reading an accessor keeps the client invariant. */
  lemma {:induction false} AccessKeepsCoherent(protocols: set<Protocol>, c: ClientState, w: World, a: Accessor)
    requires Coherent(protocols, c)
    ensures Coherent(protocols, Access(protocols, c, w, a).client)
  {
    var r := Access(protocols, c, w, a);
    if CacheKey(a) !in c.cache {
      FacadeUrlIsClientUrl(protocols, c);
      var built := BuildFacade(protocols, c).value;
      if r.result.Ok? {
        var inst := r.result.value;
        assert EntryFits(c, a, inst);
        forall k | k in r.client.cache
          ensures exists b :: CacheKey(b) == k && EntryFits(r.client, b, r.client.cache[k])
        {
          if k == CacheKey(a) {
            assert EntryFits(r.client, a, r.client.cache[k]);
          } else {
            var b :| CacheKey(b) == k && EntryFits(c, b, c.cache[k]);
            assert EntryFits(r.client, b, r.client.cache[k]);
          }
        }
      }
    }
  }

  /** A client built from a bare domain hands its facades the expanded endpoint, expanded once, whatever its transport. */
  lemma FacadeEndpointFromDomain(protocols: set<Protocol>, url: string, username: string, password: string,
                                 version: string, protocol: string, transport: Option<Transport>, w: World, a: Accessor)
    requires NewClient(protocols, url, username, password, version, false, protocol, transport).Ok?
    ensures var c := NewClient(protocols, url, username, password, version, false, protocol, transport).value;
            var r := Access(protocols, c, w, a);
            r.result.Ok? ==> r.result.value.conn.url == ExpandUrl(url, protocol)
  {
    var c := NewClient(protocols, url, username, password, version, false, protocol, transport).value;
    NewClientCoherent(protocols, url, username, password, version, false, protocol, transport);
    FacadeUrlIsClientUrl(protocols, c);
  }

  /** A second read of an accessor returns the kept facade and sends nothing. */
  lemma SecondAccessIsCached(protocols: set<Protocol>, c: ClientState, w: World, a: Accessor)
    requires Access(protocols, c, w, a).result.Ok?
    ensures var first := Access(protocols, c, w, a);
            Access(protocols, first.client, first.world, a) == Fetched(first.client, first.world, first.result)
  {
  }

  /** The kept facade holds the token its login returned, so it is non-null when the server issues one. */
  lemma KeptFacadeHasSession(protocols: set<Protocol>, c: ClientState, w: World, a: Accessor)
    requires CacheKey(a) !in c.cache && c.api.protocol in protocols
    requires var login := w.server.answer(w.log, LoginEvent(BuildFacade(protocols, c).value));
             login.Answer? && login.value != Nil
    ensures Access(protocols, c, w, a).result.Ok?
    ensures Access(protocols, c, w, a).result.value.conn.session != Nil
    ensures Access(protocols, c, w, a).result.value.conn.session ==
            w.server.answer(w.log, LoginEvent(BuildFacade(protocols, c).value)).value
  {
  }

  /** The eleven accessors wrap distinct classes, so their cache entries never collide. */
  lemma CacheKeysDistinct(a: Accessor, b: Accessor)
    requires a != b
    ensures CacheKey(a) != CacheKey(b)
  {
  }

  /** No cache key shadows one of the connection's own attributes in the instance dictionary. */
  lemma CacheKeysAvoidAttributes(a: Accessor)
    ensures CacheKey(a) !in {"url", "username", "password", "version", "protocol", "transport", "session", "client"}
  {
  }

  /**
   * The instance-dictionary key is the class name, never an attribute name, so
   * a kept facade never shadows the lazy attribute: every read goes through it.
   */
  lemma CacheKeyIsNotAttributeName(a: Accessor, b: Accessor)
    ensures CacheKey(a) != AttributeName(b)
  {
    assert 'A' <= CacheKey(a)[0] <= 'Z';
    assert 'a' <= AttributeName(b)[0] <= 'z';
  }

  /** Several clients, each with its own instance dictionary. */
  datatype Clients = Clients(byId: map<nat, ClientState>, world: World)

  /**
   * Reading an accessor of one client: a frame helper that the per-client
   * lemmas are stated over; its contract is the map update it performs.
   */
  function AccessOne(protocols: set<Protocol>, cs: Clients, id: nat, a: Accessor): (r: Clients)
    requires id in cs.byId
    ensures r.byId.Keys == cs.byId.Keys
    ensures forall other :: other in cs.byId && other != id ==> r.byId[other] == cs.byId[other]
    ensures r.byId[id] == Access(protocols, cs.byId[id], cs.world, a).client
  {
    var fetched := Access(protocols, cs.byId[id], cs.world, a);
    Clients(cs.byId[id := fetched.client], fetched.world)
  }

  /**
   * One client's first read of an accessor does not make it kept for another
   * client: the other client's next read of the same accessor still builds its
   * own facade and sends its own login, while the first client, if its read
   * succeeded, now answers from its cache and sends nothing.
   */
  lemma AccessIsPerClient(protocols: set<Protocol>, cs: Clients, i: nat, j: nat, a: Accessor)
    requires i in cs.byId && j in cs.byId && i != j
    requires CacheKey(a) !in cs.byId[j].cache && cs.byId[j].api.protocol in protocols
    ensures var after := AccessOne(protocols, cs, i, a);
            Access(protocols, after.byId[j], after.world, a).world.log ==
            after.world.log + [LoginEvent(BuildFacade(protocols, cs.byId[j]).value)]
    ensures var after := AccessOne(protocols, cs, i, a);
            Access(protocols, cs.byId[i], cs.world, a).result.Ok? ==>
              Access(protocols, after.byId[i], after.world, a).world == after.world
  {
  }

  /**
   * `client.<accessor>.<method>(...)`: read the accessor, then call the method
   * on the facade it yields. The kept facade is that very object, so whatever
   * the call does to its connection (`connect`, `__enter__`, `__exit__`) is
   * what the next read of the accessor finds.
   */
  datatype Used = Used(client: ClientState, world: World, result: Result<Returned>)

  function UseAccessor(protocols: set<Protocol>, c: ClientState, w: World, a: Accessor,
                       name: string, pos: seq<Value>, kw: map<string, Value>): (r: Used)
    ensures r.world.server == w.server
    ensures r.client.api == c.api
    ensures forall k :: k != CacheKey(a) ==>
              (k in r.client.cache <==> k in c.cache) && (k in c.cache ==> r.client.cache[k] == c.cache[k])
    ensures Access(protocols, c, w, a).result.Err? ==>
              var fetched := Access(protocols, c, w, a);
              r == Used(fetched.client, fetched.world, Err(fetched.result.error))
    ensures Access(protocols, c, w, a).result.Ok? ==>
              var fetched := Access(protocols, c, w, a);
              var inst := fetched.result.value;
              var called := CallMethod(inst.cls, inst.conn, fetched.world, name, pos, kw);
              && CacheKey(a) in r.client.cache
              && r.client.cache[CacheKey(a)] == Instance(inst.cls, called.conn)
              && r.world == called.world && r.result == called.result
    ensures CacheKey(a) in c.cache ==>
              var inst := c.cache[CacheKey(a)];
              r.world == CallMethod(inst.cls, inst.conn, w, name, pos, kw).world
  {
    var fetched := Access(protocols, c, w, a);
    match fetched.result
    case Err(e) => Used(fetched.client, fetched.world, Err(e))
    case Ok(inst) =>
      var called := CallMethod(inst.cls, inst.conn, fetched.world, name, pos, kw);
      var kept := fetched.client.(cache := fetched.client.cache[CacheKey(a) := Instance(inst.cls, called.conn)]);
      Used(kept, called.world, called.result)
  }

  /** A successful read leaves the facade it returned under the accessor's key. */
  lemma AccessKeepsResult(protocols: set<Protocol>, c: ClientState, w: World, a: Accessor)
    requires Access(protocols, c, w, a).result.Ok?
    ensures var r := Access(protocols, c, w, a);
            CacheKey(a) in r.client.cache && r.client.cache[CacheKey(a)] == r.result.value
  {
  }

  /** A facade call changes at most the client and session of the facade's connection, so a fitting entry still fits. */
  lemma RefitEntry(c: ClientState, a: Accessor, inst: Instance, conn: Conn)
    requires EntryFits(c, a, inst)
    requires conn == inst.conn.(client := conn.client, session := conn.session)
    requires conn.client == inst.conn.client || conn.client == Connect(inst.conn).client
    ensures EntryFits(c, a, Instance(inst.cls, conn))
  {
  }

  /** Calling any method on a kept facade keeps the client invariant. */
  lemma {:induction false} UseKeepsCoherent(protocols: set<Protocol>, c: ClientState, w: World, a: Accessor,
                                             name: string, pos: seq<Value>, kw: map<string, Value>)
    requires Coherent(protocols, c)
    ensures Coherent(protocols, UseAccessor(protocols, c, w, a, name, pos, kw).client)
  {
    var fetched := Access(protocols, c, w, a);
    AccessKeepsCoherent(protocols, c, w, a);
    if fetched.result.Ok? {
      var key := CacheKey(a);
      var inst := fetched.result.value;
      var called := CallMethod(inst.cls, inst.conn, fetched.world, name, pos, kw);
      var r := UseAccessor(protocols, c, w, a, name, pos, kw);
      AccessKeepsResult(protocols, c, w, a);
      var b :| CacheKey(b) == key && EntryFits(fetched.client, b, inst);
      RefitEntry(fetched.client, b, inst, called.conn);
      assert r.client == fetched.client.(cache := fetched.client.cache[key := Instance(inst.cls, called.conn)]);
      forall k | k in r.client.cache
        ensures exists e :: CacheKey(e) == k && EntryFits(r.client, e, r.client.cache[k])
      {
        if k == key {
          assert EntryFits(r.client, b, r.client.cache[k]);
        } else {
          var e :| CacheKey(e) == k && EntryFits(fetched.client, e, fetched.client.cache[k]);
          assert EntryFits(r.client, e, r.client.cache[k]);
        }
      }
    }
  }

  /** Once a facade is kept, using one of its own methods sends only that call, with the facade's session, and no login. */
  lemma KeptFacadeCallsOnly(protocols: set<Protocol>, c: ClientState, w: World, a: Accessor,
                            name: string, pos: seq<Value>, kw: map<string, Value>)
    requires Coherent(protocols, c) && CacheKey(a) in c.cache
    requires var inst := c.cache[CacheKey(a)];
             Lookup(inst.cls, name).Some? && Marshal.Bindable(Lookup(inst.cls, name).value.params, pos, kw)
    ensures var inst := c.cache[CacheKey(a)];
            var r := UseAccessor(protocols, c, w, a, name, pos, kw);
            && |r.world.log| == |w.log| + 1
            && r.world.log[|w.log|].request.Call?
            && r.world.log[|w.log|].request.session == inst.conn.session
            && r.world.log[|w.log|].via.endpoint == c.api.url
            && r.client == c
  {
    var inst := c.cache[CacheKey(a)];
    var b :| CacheKey(b) == CacheKey(a) && EntryFits(c, b, inst);
    CallMethodRecords(inst.cls, inst.conn, w, name, pos, kw);
    assert c.cache[CacheKey(a) := inst] == c.cache;
  }
}

=== FILE: customers.dfy ===
/** The customer facades (magento/customer.py) as method tables. */
module Customers {
  import opened Outcomes
  import opened Values
  import opened Marshal

  datatype Class = Customer | CustomerGroup | CustomerAddress

  /** The Python class name, `klass.__name__`. */
  function ClassName(c: Class): string {
    match c
    case Customer => "Customer"
    case CustomerGroup => "CustomerGroup"
    case CustomerAddress => "CustomerAddress"
  }

  // Customer
  const CustomerList: Method :=
    MethodRule([Optional("filters", Nil)], "customer.list", FiltersOrEmptyDict, Raw)
  const CustomerCreate: Method := Forward("customer.create", [Required("data")], AsInt)
  const CustomerInfo: Method :=
    MethodRule([Required("id"), Optional("attributes", Nil)], "customer.info", AttributesIfSet, Raw)
  const CustomerUpdate: Method := Forward("customer.update", [Required("id"), Required("data")], Raw)
  const CustomerDelete: Method := Forward("customer.delete", [Required("id")], Raw)

  // CustomerGroup
  const GroupList: Method := Forward("customer_group.list", [], Raw)

  // CustomerAddress
  const AddressList: Method := Forward("customer_address.list", [Required("customer_id")], Raw)
  const AddressCreate: Method :=
    Forward("customer_address.create", [Required("customer_id"), Required("data")], AsInt)
  const AddressInfo: Method := Forward("customer_address.info", [Required("id")], Raw)
  const AddressUpdate: Method := Forward("customer_address.update", [Required("id"), Required("data")], Raw)
  const AddressDelete: Method := Forward("customer_address.delete", [Required("id")], Raw)

  /** The method a customer facade has under `name`, if any. */
  function Lookup(c: Class, name: string): Option<Method> {
    match c
    case Customer =>
      (match name
       case "list" => Some(CustomerList)
       case "create" => Some(CustomerCreate)
       case "info" => Some(CustomerInfo)
       case "update" => Some(CustomerUpdate)
       case "delete" => Some(CustomerDelete)
       case _ => None)
    case CustomerGroup =>
      (match name
       case "list" => Some(GroupList)
       case _ => None)
    case CustomerAddress =>
      (match name
       case "list" => Some(AddressList)
       case "create" => Some(AddressCreate)
       case "info" => Some(AddressInfo)
       case "update" => Some(AddressUpdate)
       case "delete" => Some(AddressDelete)
       case _ => None)
  }

  /** `Customer.list()`, `Customer.list(None)` and `Customer.list({})` make the same call, `[{}]`. */
  lemma CustomerListWithoutFilters()
    ensures Bind(CustomerList.params, [], map[]) == Ok([Nil])
    ensures Args(CustomerList.shape, [Nil]) == List([EmptyDict])
    ensures Args(CustomerList.shape, [EmptyDict]) == List([EmptyDict])
  {
    BindWithDefaults(CustomerList.params, [], [Nil]);
    FiltersOrEmptyDictArgs(Nil);
    FiltersOrEmptyDictArgs(EmptyDict);
  }

  /** `Customer.info(id)` sends `[id]`; with truthy attributes it sends `[id, attributes]`. */
  lemma CustomerInfoArgs(id: Value, attributes: Value)
    ensures Truthy(attributes) ==> Args(CustomerInfo.shape, [id, attributes]) == List([id, attributes])
    ensures !Truthy(attributes) ==> Args(CustomerInfo.shape, [id, attributes]) == List([id])
    ensures Bind(CustomerInfo.params, [id], map[]) == Ok([id, Nil])
  {
    BindWithDefaults(CustomerInfo.params, [id], [id, Nil]);
  }
}

=== FILE: facades.dfy ===
/**
 * Calling a facade method on a connection: look the method up on the
 * facade's class, bind the arguments, send one `call` with the laid-out
 * argument list, and coerce what comes back.
 */
module Facades {
  import opened Outcomes
  import opened Values
  import opened Remote
  import opened Api
  import opened Marshal
  import Catalog
  import Customers
  import Sales

  /** Every facade class of the three resource modules. */
  datatype FacadeClass =
    | CatalogClass(catalog: Catalog.Class)
    | CustomerClass(customer: Customers.Class)
    | SalesClass(sales: Sales.Class)

  function ClassName(c: FacadeClass): string {
    match c
    case CatalogClass(k) => Catalog.ClassName(k)
    case CustomerClass(k) => Customers.ClassName(k)
    case SalesClass(k) => Sales.ClassName(k)
  }

  function Lookup(c: FacadeClass, name: string): Option<Method> {
    match c
    case CatalogClass(k) => Catalog.Lookup(k, name)
    case CustomerClass(k) => Customers.Lookup(k, name)
    case SalesClass(k) => Sales.Lookup(k, name)
  }

  /** The reply to a facade call, coerced as its method prescribes. */
  function Finish(coercion: Coercion, reply: Result<Value>): Result<Value> {
    match reply
    case Ok(raw) => Coerce(coercion, raw)
    case Err(e) => Err(e)
  }

  /** What a facade method returns: the facade itself (`__enter__` returns `self`) or a wire value. */
  datatype Returned = Itself | Data(datum: Value)

  function AsReturned(r: Result<Value>): (out: Result<Returned>)
    ensures out.Ok? <==> r.Ok?
    ensures r.Ok? ==> out.value == Data(r.value)
    ensures r.Err? ==> out.error == r.error
  {
    match r
    case Ok(v) => Ok(Data(v))
    case Err(e) => Err(e)
  }

  /** A facade call's effect: the facade's connection afterwards, the remote log, and the outcome. */
  datatype Invoked = Invoked(conn: Conn, world: World, result: Result<Returned>)

  /** The methods every facade inherits from `API` without overriding them. */
  predicate Inherited(name: string) {
    name == "call" || name == "multiCall" || name == "connect" || name == "__enter__" || name == "__exit__"
  }

  /** The parameters (after `self`) of the inherited methods. */
  function InheritedParams(name: string): seq<Param>
    requires Inherited(name)
  {
    match name
    case "call" => [Required("resource_path"), Required("arguments")]
    case "multiCall" => [Required("calls")]
    case "__exit__" => [Required("type"), Required("value"), Required("traceback")]
    case _ => []
  }

  /** A method the facade class defines itself: bind, send one `call`, coerce the reply. */
  function Own(m: Method, c: Conn, w: World, pos: seq<Value>, kw: map<string, Value>): (r: Invoked)
    ensures r.world.server == w.server && r.conn == c
    ensures |w.log| <= |r.world.log| <= |w.log| + 1 && r.world.log[..|w.log|] == w.log
    ensures !Bindable(m.params, pos, kw) ==> r == Invoked(c, w, Err(BadArguments))
    ensures r.result.Ok? ==>
              && |r.world.log| == |w.log| + 1
              && var reply := w.server.answer(w.log, r.world.log[|w.log|]);
                 reply.Answer? && r.result == AsReturned(Coerce(m.coercion, reply.value))
    ensures r.result.Ok? && m.coercion == AsInt ==> r.result.value.Data? && r.result.value.datum.Int?
    ensures r.result.Ok? && m.coercion == AsBool ==> r.result.value.Data? && r.result.value.datum.Bool?
  {
    match Bind(m.params, pos, kw)
    case Err(e) => Invoked(c, w, Err(e))
    case Ok(vals) =>
      var sent := Api.Call(c, w, Str(m.path), Args(m.shape, vals));
      Invoked(c, sent.world, AsReturned(Finish(m.coercion, sent.result)))
  }

  /** An inherited `API` method: bind its parameters, then run it on the facade's connection. */
  function Inherit(name: string, c: Conn, w: World, pos: seq<Value>, kw: map<string, Value>): (r: Invoked)
    requires Inherited(name)
    ensures r.world.server == w.server
    ensures |w.log| <= |r.world.log| <= |w.log| + 1 && r.world.log[..|w.log|] == w.log
    ensures r.conn == c.(client := r.conn.client, session := r.conn.session)
    ensures r.conn.client == c.client || r.conn.client == Connect(c).client
    ensures !Bindable(InheritedParams(name), pos, kw) ==> r == Invoked(c, w, Err(BadArguments))
    ensures Bindable(InheritedParams(name), pos, kw) ==>
              && (name == "call" || name == "multiCall" ==> r.conn == c)
              && (name == "connect" ==> r == Invoked(Connect(c), w, Ok(Data(Nil))))
              && (name == "__enter__" ==>
                    && r.conn == Enter(c, w).conn && r.world == Enter(c, w).world
                    && (r.result.Ok? <==> Enter(c, w).status.Done?)
                    && (r.result.Ok? ==> r.result.value == Itself))
              && (name == "__exit__" ==>
                    && r.conn == Exit(c, w).conn && r.world == Exit(c, w).world
                    && (r.result.Ok? <==> Exit(c, w).status.Done?)
                    && (r.result.Ok? ==> r.result.value == Data(Nil)))
  {
    match Bind(InheritedParams(name), pos, kw)
    case Err(e) => Invoked(c, w, Err(e))
    case Ok(vals) =>
      match name
      case "call" =>
        var sent := Api.Call(c, w, vals[0], vals[1]);
        Invoked(c, sent.world, AsReturned(sent.result))
      case "multiCall" =>
        var sent := Api.MultiCall(c, w, vals[0]);
        Invoked(c, sent.world, AsReturned(sent.result))
      case "connect" => Invoked(Connect(c), w, Ok(Data(Nil)))
      case "__enter__" =>
        var s := Enter(c, w);
        Invoked(s.conn, s.world, if s.status.Done? then Ok(Itself) else Err(s.status.error))
      case _ =>
        var s := Exit(c, w);
        Invoked(s.conn, s.world, if s.status.Done? then Ok(Data(Nil)) else Err(s.status.error))
  }

  /**
   * `facade.<name>(*pos, **kw)`. The facade class's own methods come first,
   * then those inherited from `API`; any other name raises before anything is
   * sent. At most one request goes out, and only the inherited `connect`,
   * `__enter__` and `__exit__` change the facade's connection.
   */
  function CallMethod(
    cls: FacadeClass, c: Conn, w: World, name: string, pos: seq<Value>, kw: map<string, Value>): (r: Invoked)
    ensures r.world.server == w.server
    ensures |w.log| <= |r.world.log| <= |w.log| + 1 && r.world.log[..|w.log|] == w.log
    ensures r.conn == c.(client := r.conn.client, session := r.conn.session)
    ensures r.conn.client == c.client || r.conn.client == Connect(c).client
    ensures r.result == Err(NoSuchMethod(name)) <==> Lookup(cls, name).None? && !Inherited(name)
    ensures Lookup(cls, name).None? && !Inherited(name) ==> r == Invoked(c, w, Err(NoSuchMethod(name)))
    ensures Lookup(cls, name).Some? ==> r == Own(Lookup(cls, name).value, c, w, pos, kw)
    ensures Lookup(cls, name).None? && Inherited(name) ==> r == Inherit(name, c, w, pos, kw)
  {
    match Lookup(cls, name)
    case Some(m) => Own(m, c, w, pos, kw)
    case None => if Inherited(name) then Inherit(name, c, w, pos, kw) else Invoked(c, w, Err(NoSuchMethod(name)))
  }

  /** No facade class defines a method of its own under an inherited name. */
  lemma InheritedNotShadowed(cls: FacadeClass, name: string)
    requires Inherited(name)
    ensures Lookup(cls, name).None?
  {
    match cls
    case CatalogClass(k) => CatalogDefinesNone(k, name);
    case CustomerClass(k) => CustomersDefineNone(k, name);
    case SalesClass(k) => SalesDefinesNone(k, name);
  }

  lemma CatalogDefinesNone(k: Catalog.Class, name: string)
    requires Inherited(name)
    ensures Catalog.Lookup(k, name).None?
  {
    if name == "call" {
      CatalogLacksCall(k);
    } else if name == "multiCall" {
      CatalogLacksMultiCall(k);
    } else if name == "connect" {
      CatalogLacksConnect(k);
    } else if name == "__enter__" {
      CatalogLacksEnter(k);
    } else {
      CatalogLacksExit(k);
    }
  }

  lemma CatalogLacksCall(k: Catalog.Class)
    ensures Catalog.Lookup(k, "call").None?
  {
  }

  lemma CatalogLacksMultiCall(k: Catalog.Class)
    ensures Catalog.Lookup(k, "multiCall").None?
  {
  }

  lemma CatalogLacksConnect(k: Catalog.Class)
    ensures Catalog.Lookup(k, "connect").None?
  {
  }

  lemma CatalogLacksEnter(k: Catalog.Class)
    ensures Catalog.Lookup(k, "__enter__").None?
  {
  }

  lemma CatalogLacksExit(k: Catalog.Class)
    ensures Catalog.Lookup(k, "__exit__").None?
  {
  }

  lemma CustomersDefineNone(k: Customers.Class, name: string)
    requires Inherited(name)
    ensures Customers.Lookup(k, name).None?
  {
    if name == "call" {
      assert Customers.Lookup(k, "call").None?;
    } else if name == "multiCall" {
      assert Customers.Lookup(k, "multiCall").None?;
    } else if name == "connect" {
      assert Customers.Lookup(k, "connect").None?;
    } else if name == "__enter__" {
      assert Customers.Lookup(k, "__enter__").None?;
    } else {
      assert Customers.Lookup(k, "__exit__").None?;
    }
  }

  lemma SalesDefinesNone(k: Sales.Class, name: string)
    requires Inherited(name)
    ensures Sales.Lookup(k, name).None?
  {
    if name == "call" {
      SalesLacksCall(k);
    } else if name == "multiCall" {
      SalesLacksMultiCall(k);
    } else if name == "connect" {
      SalesLacksConnect(k);
    } else if name == "__enter__" {
      SalesLacksEnter(k);
    } else {
      SalesLacksExit(k);
    }
  }

  lemma SalesLacksCall(k: Sales.Class)
    ensures Sales.Lookup(k, "call").None?
  {
  }

  lemma SalesLacksMultiCall(k: Sales.Class)
    ensures Sales.Lookup(k, "multiCall").None?
  {
  }

  lemma SalesLacksConnect(k: Sales.Class)
    ensures Sales.Lookup(k, "connect").None?
  {
  }

  lemma SalesLacksEnter(k: Sales.Class)
    ensures Sales.Lookup(k, "__enter__").None?
  {
  }

  lemma SalesLacksExit(k: Sales.Class)
    ensures Sales.Lookup(k, "__exit__").None?
  {
  }

  /**
   * Against a recording server, a bound facade call logs exactly
   * `(session, path, argument list)` and returns the coerced reply.
   */
  lemma CallMethodRecords(
    cls: FacadeClass, c: Conn, w: World, name: string, pos: seq<Value>, kw: map<string, Value>)
    requires Lookup(cls, name).Some? && Bindable(Lookup(cls, name).value.params, pos, kw)
    requires c.client.Some?
    ensures var m := Lookup(cls, name).value;
            var vals := Bind(m.params, pos, kw).value;
            var e := Event(c.client.value, Request.Call(c.session, Str(m.path), Args(m.shape, vals)));
            var r := CallMethod(cls, c, w, name, pos, kw);
            && r.world.log == w.log + [e]
            && r.result == AsReturned(Finish(m.coercion, AsResult(w.server.answer(w.log, e))))
  {
  }

  /**
   * The inherited `call(resource_path, arguments)` on any facade sends exactly
   * those two values with the facade's session and returns the raw reply.
   */
  lemma InheritedCallRecords(cls: FacadeClass, c: Conn, w: World, path: Value, args: Value)
    requires c.client.Some?
    ensures var e := Event(c.client.value, Request.Call(c.session, path, args));
            var r := CallMethod(cls, c, w, "call", [path, args], map[]);
            && r.conn == c
            && r.world.log == w.log + [e]
            && r.result == AsReturned(AsResult(w.server.answer(w.log, e)))
  {
    InheritedNotShadowed(cls, "call");
    BindAllPositional(InheritedParams("call"), [path, args]);
    assert Bind(InheritedParams("call"), [path, args], map[]) == Ok([path, args]);
  }

  /**
   * The inherited `multiCall(calls)` on any facade sends exactly that batch
   * with the facade's session and returns the raw reply.
   */
  lemma InheritedMultiCallRecords(cls: FacadeClass, c: Conn, w: World, calls: Value)
    requires c.client.Some?
    ensures var e := Event(c.client.value, Request.MultiCall(c.session, calls));
            var r := CallMethod(cls, c, w, "multiCall", [calls], map[]);
            && r.conn == c
            && r.world.log == w.log + [e]
            && r.result == AsReturned(AsResult(w.server.answer(w.log, e)))
  {
    InheritedNotShadowed(cls, "multiCall");
    BindAllPositional(InheritedParams("multiCall"), [calls]);
    assert Bind(InheritedParams("multiCall"), [calls], map[]) == Ok([calls]);
  }

  /** `Category().call('catalog_category.tree', [])` reaches the server as that very call. */
  lemma InheritedCallScenario(c: Conn, w: World)
    requires c.client.Some?
    ensures CallMethod(CatalogClass(Catalog.Category), c, w, "call", [Str("catalog_category.tree"), List([])], map[]).world.log
            == w.log + [Event(c.client.value, Request.Call(c.session, Str("catalog_category.tree"), List([])))]
  {
    InheritedCallRecords(CatalogClass(Catalog.Category), c, w, Str("catalog_category.tree"), List([]));
  }

  /** `facade.__exit__(None, None, None)` ends the facade's session like the `with` statement does. */
  lemma InheritedExitScenario(cls: FacadeClass, c: Conn, w: World)
    requires c.client.Some?
    ensures var r := CallMethod(cls, c, w, "__exit__", [Nil, Nil, Nil], map[]);
            && r.world.log == w.log + [Event(c.client.value, EndSession(c.session))]
            && (r.result.Ok? ==> r.conn.session == Nil)
  {
    InheritedNotShadowed(cls, "__exit__");
    BindAllPositional(InheritedParams("__exit__"), [Nil, Nil, Nil]);
  }

  /**
   * `Customer.create(data)` sends `customer.create` with `[data]` once and
   * turns a numeric-string id into an integer.
   */
  lemma CustomerCreateScenario(c: Conn, w: World, data: Value, id: int)
    requires c.client.Some?
    requires w.server.answer(w.log, Event(c.client.value, Request.Call(c.session, Str("customer.create"), List([data]))))
             == Answer(Str(DecimalString(id)))
    ensures var r := CallMethod(CustomerClass(Customers.Customer), c, w, "create", [data], map[]);
            && r.world.log == w.log + [Event(c.client.value, Request.Call(c.session, Str("customer.create"), List([data])))]
            && r.result == Ok(Data(Int(id)))
  {
    BindAllPositional(Customers.CustomerCreate.params, [data]);
    IntOfDecimalString(id);
  }

  /** `Category.delete(id)` sends `[id]` and reports whether the raw reply was truthy. */
  lemma CategoryDeleteScenario(c: Conn, w: World, id: Value, reply: Value)
    requires c.client.Some?
    requires w.server.answer(w.log, Event(c.client.value, Request.Call(c.session, Str("catalog_category.delete"), List([id]))))
             == Answer(reply)
    ensures var r := CallMethod(CatalogClass(Catalog.Category), c, w, "delete", [id], map[]);
            && r.world.log == w.log + [Event(c.client.value, Request.Call(c.session, Str("catalog_category.delete"), List([id])))]
            && r.result == Ok(Data(Bool(Truthy(reply))))
  {
    BindAllPositional(Catalog.CategoryDelete.params, [id]);
  }

  /** `Product.create(type, set, sku, data)` sends the four values in order and returns `int(...)`. */
  lemma ProductCreateScenario(c: Conn, w: World, productType: Value, attributeSet: Value, sku: Value, data: Value)
    requires c.client.Some?
    ensures var r := CallMethod(CatalogClass(Catalog.Product), c, w, "create", [productType, attributeSet, sku, data], map[]);
            && r.world.log == w.log + [Event(c.client.value,
                 Request.Call(c.session, Str("catalog_product.create"), List([productType, attributeSet, sku, data])))]
            && (r.result.Ok? ==> r.result.value.Data? && r.result.value.datum.Int?)
  {
    BindAllPositional(Catalog.ProductCreate.params, [productType, attributeSet, sku, data]);
  }

  /** `currentStore()` with no store view sends `[]` and, when it succeeds, returns an integer. */
  lemma CurrentStoreScenario(c: Conn, w: World)
    requires c.client.Some?
    ensures var r := CallMethod(CatalogClass(Catalog.Category), c, w, "currentStore", [], map[]);
            && r.world.log == w.log + [Event(c.client.value,
                 Request.Call(c.session, Str("catalog_category.currentStore"), List([])))]
            && (r.result.Ok? ==> r.result.value.Data? && r.result.value.datum.Int?)
  {
    BindWithDefaults(Catalog.CategoryCurrentStore.params, [], [Nil]);
    StoreViewIfSetArgs(Nil);
    assert Catalog.CategoryCurrentStore.path == "catalog_category.currentStore";
  }

  /** Without filters, `Order.list` sends `[None]` where `Customer.list` sends `[{}]`. */
  lemma ListWithoutFiltersDiffers(c: Conn, w: World)
    requires c.client.Some?
    ensures CallMethod(SalesClass(Sales.Order), c, w, "list", [], map[]).world.log ==
            w.log + [Event(c.client.value, Request.Call(c.session, Str("sales_order.list"), List([Nil])))]
    ensures CallMethod(CustomerClass(Customers.Customer), c, w, "list", [], map[]).world.log ==
            w.log + [Event(c.client.value, Request.Call(c.session, Str("customer.list"), List([EmptyDict])))]
  {
    Sales.OrderListSendsNone();
    Customers.CustomerListWithoutFilters();
  }

  /** `createOption` and `addOption` make the same call and return the same result. */
  lemma CreateOptionScenario(c: Conn, w: World, pos: seq<Value>, kw: map<string, Value>)
    ensures CallMethod(CatalogClass(Catalog.ProductAttribute), c, w, "createOption", pos, kw) ==
            CallMethod(CatalogClass(Catalog.ProductAttribute), c, w, "addOption", pos, kw)
  {
  }

  /** A successful call returned an integer. */
  predicate YieldsInt(r: Invoked) {
    r.result.Ok? ==> r.result.value.Data? && r.result.value.datum.Int?
  }

  /** A successful call returned a boolean. */
  predicate YieldsBool(r: Invoked) {
    r.result.Ok? ==> r.result.value.Data? && r.result.value.datum.Bool?
  }

  /** A successful call sent one request and returned the server's answer to it untouched. */
  predicate YieldsRaw(w: World, r: Invoked) {
    r.result.Ok? ==>
      && |r.world.log| == |w.log| + 1 && r.result.value.Data?
      && w.server.answer(w.log, r.world.log[|w.log|]) == Answer(r.result.value.datum)
  }

  /**
   * Catalog creations return `int(...)`, category updates, moves and deletes
   * return `bool(...)`, and attribute writes return the reply as it came.
   */
  lemma CatalogResultTypes(c: Conn, w: World, pos: seq<Value>, kw: map<string, Value>)
    ensures YieldsInt(CallMethod(CatalogClass(Catalog.Category), c, w, "create", pos, kw))
    ensures YieldsInt(CallMethod(CatalogClass(Catalog.Product), c, w, "create", pos, kw))
    ensures YieldsBool(CallMethod(CatalogClass(Catalog.Category), c, w, "update", pos, kw))
    ensures YieldsBool(CallMethod(CatalogClass(Catalog.Category), c, w, "move", pos, kw))
    ensures YieldsBool(CallMethod(CatalogClass(Catalog.Category), c, w, "delete", pos, kw))
    ensures YieldsRaw(w, CallMethod(CatalogClass(Catalog.ProductAttribute), c, w, "create", pos, kw))
    ensures YieldsRaw(w, CallMethod(CatalogClass(Catalog.ProductAttribute), c, w, "update", pos, kw))
  {
    assert Lookup(CatalogClass(Catalog.Category), "create") == Some(Catalog.CategoryCreate);
    assert Lookup(CatalogClass(Catalog.Product), "create") == Some(Catalog.ProductCreate);
    assert Lookup(CatalogClass(Catalog.Category), "update") == Some(Catalog.CategoryUpdate);
    assert Lookup(CatalogClass(Catalog.Category), "move") == Some(Catalog.CategoryMove);
    assert Lookup(CatalogClass(Catalog.Category), "delete") == Some(Catalog.CategoryDelete);
    assert Lookup(CatalogClass(Catalog.ProductAttribute), "create") == Some(Catalog.AttributeCreate);
    assert Lookup(CatalogClass(Catalog.ProductAttribute), "update") == Some(Catalog.AttributeUpdate);
  }

  /** Customer and address creation return `int(...)`; customer update and delete return the raw reply. */
  lemma CustomerResultTypes(c: Conn, w: World, pos: seq<Value>, kw: map<string, Value>)
    ensures YieldsInt(CallMethod(CustomerClass(Customers.Customer), c, w, "create", pos, kw))
    ensures YieldsInt(CallMethod(CustomerClass(Customers.CustomerAddress), c, w, "create", pos, kw))
    ensures YieldsRaw(w, CallMethod(CustomerClass(Customers.Customer), c, w, "update", pos, kw))
    ensures YieldsRaw(w, CallMethod(CustomerClass(Customers.Customer), c, w, "delete", pos, kw))
  {
    assert Lookup(CustomerClass(Customers.Customer), "create") == Some(Customers.CustomerCreate);
    assert Lookup(CustomerClass(Customers.CustomerAddress), "create") == Some(Customers.AddressCreate);
    assert Lookup(CustomerClass(Customers.Customer), "update") == Some(Customers.CustomerUpdate);
    assert Lookup(CustomerClass(Customers.Customer), "delete") == Some(Customers.CustomerDelete);
  }

  /** State changes on orders and invoices return `bool(...)` of the reply. */
  lemma SalesResultTypes(c: Conn, w: World, pos: seq<Value>, kw: map<string, Value>)
    ensures YieldsBool(CallMethod(SalesClass(Sales.Order), c, w, "hold", pos, kw))
    ensures YieldsBool(CallMethod(SalesClass(Sales.Order), c, w, "unhold", pos, kw))
    ensures YieldsBool(CallMethod(SalesClass(Sales.Order), c, w, "cancel", pos, kw))
    ensures YieldsBool(CallMethod(SalesClass(Sales.Invoice), c, w, "capture", pos, kw))
    ensures YieldsBool(CallMethod(SalesClass(Sales.Invoice), c, w, "void", pos, kw))
    ensures YieldsBool(CallMethod(SalesClass(Sales.Invoice), c, w, "cancel", pos, kw))
  {
    assert Lookup(SalesClass(Sales.Order), "hold") == Some(Sales.OrderHold);
    assert Lookup(SalesClass(Sales.Order), "unhold") == Some(Sales.OrderUnhold);
    assert Lookup(SalesClass(Sales.Order), "cancel") == Some(Sales.OrderCancel);
    assert Lookup(SalesClass(Sales.Invoice), "capture") == Some(Sales.InvoiceCapture);
    assert Lookup(SalesClass(Sales.Invoice), "void") == Some(Sales.InvoiceVoid);
    assert Lookup(SalesClass(Sales.Invoice), "cancel") == Some(Sales.InvoiceCancel);
  }

  /** `CustomerAddress.list(customer)` and `.create(customer, data)` send their arguments positionally. */
  lemma AddressScenario(c: Conn, w: World, customer: Value, data: Value)
    requires c.client.Some?
    ensures CallMethod(CustomerClass(Customers.CustomerAddress), c, w, "list", [customer], map[]).world.log ==
            w.log + [Event(c.client.value, Request.Call(c.session, Str("customer_address.list"), List([customer])))]
    ensures CallMethod(CustomerClass(Customers.CustomerAddress), c, w, "create", [customer, data], map[]).world.log ==
            w.log + [Event(c.client.value, Request.Call(c.session, Str("customer_address.create"), List([customer, data])))]
  {
    BindAllPositional(Customers.AddressList.params, [customer]);
    BindAllPositional(Customers.AddressCreate.params, [customer, data]);
  }
}

=== FILE: marshal.dfy ===
/**
 * What every facade method does between its caller and `API.call`: bind the
 * caller's positional and keyword arguments to its parameters (Python's call
 * rules, defaults included), lay them out as the remote argument list, and
 * coerce the raw reply with `int(...)`, `bool(...)` or not at all.
 */
module Marshal {
  import opened Outcomes
  import opened Values

  /** A parameter of a facade method (after `self`), with its default when it has one. */
  datatype Param = Param(name: string, default: Option<Value>)

  function Required(name: string): Param {
    Param(name, None)
  }

  function Optional(name: string, default: Value): Param {
    Param(name, Some(default))
  }

  /** The names of the parameters from position `k` on. */
  function NamesFrom(params: seq<Param>, k: nat): set<string> {
    set i | k <= i < |params| :: params[i].name
  }

  /** The value parameter `i` receives: positional, else keyword, else its default. */
  function Binding(params: seq<Param>, pos: seq<Value>, kw: map<string, Value>, i: nat): Option<Value>
    requires i < |params|
  {
    if i < |pos| then Some(pos[i])
    else if params[i].name in kw then Some(kw[params[i].name])
    else params[i].default
  }

  /**
   * Python accepts a call when there are no more positional arguments than
   * parameters, every keyword names a parameter not already filled
   * positionally, and every parameter ends up with a value.
   */
  predicate Bindable(params: seq<Param>, pos: seq<Value>, kw: map<string, Value>) {
    && |pos| <= |params|
    && kw.Keys <= NamesFrom(params, |pos|)
    && forall i :: |pos| <= i < |params| ==> Binding(params, pos, kw, i).Some?
  }

  /** The values of parameters `i..`, or `TypeError` when one of them has none. */
  function Fill(params: seq<Param>, pos: seq<Value>, kw: map<string, Value>, i: nat): (r: Result<seq<Value>>)
    requires i <= |params|
    decreases |params| - i
    ensures r.Ok? <==> forall j :: i <= j < |params| ==> Binding(params, pos, kw, j).Some?
    ensures r.Err? ==> r.error == BadArguments
    ensures r.Ok? ==> && |r.value| == |params| - i
                      && forall j :: i <= j < |params| ==> Binding(params, pos, kw, j) == Some(r.value[j - i])
  {
    if i == |params| then Ok([])
    else
      match Binding(params, pos, kw, i)
      case None => Err(BadArguments)
      case Some(v) =>
        match Fill(params, pos, kw, i + 1)
        case Err(e) => Err(e)
        case Ok(rest) => Ok([v] + rest)
  }

  /** Bind a call's arguments to a method's parameters, in parameter order. */
  function Bind(params: seq<Param>, pos: seq<Value>, kw: map<string, Value>): (r: Result<seq<Value>>)
    ensures r.Ok? <==> Bindable(params, pos, kw)
    ensures r.Err? ==> r.error == BadArguments
    ensures r.Ok? ==> && |r.value| == |params|
                      && forall i :: 0 <= i < |params| ==> Binding(params, pos, kw, i) == Some(r.value[i])
  {
    if |pos| > |params| || !(kw.Keys <= NamesFrom(params, |pos|)) then Err(BadArguments)
    else Fill(params, pos, kw, 0)
  }

  /** A call that passes every parameter positionally binds them exactly as given. */
  lemma BindAllPositional(params: seq<Param>, pos: seq<Value>)
    requires |pos| == |params|
    ensures Bind(params, pos, map[]) == Ok(pos)
  {
    var r := Bind(params, pos, map[]);
    assert NamesFrom(params, |pos|) == {};
    assert Bindable(params, pos, map[]);
    assert r.value == pos;
  }

  /** Parameters not passed take their defaults; a missing required one is a `TypeError`. */
  lemma BindOmitted(params: seq<Param>, pos: seq<Value>, i: nat)
    requires |pos| <= i < |params|
    ensures params[i].default.None? ==> Bind(params, pos, map[]) == Err(BadArguments)
    ensures Bind(params, pos, map[]).Ok? ==> Bind(params, pos, map[]).value[i] == params[i].default.value
  {
    assert Binding(params, pos, map[], i) == params[i].default;
  }

  /** A call that passes a prefix positionally gets its defaults for every later parameter. */
  lemma BindWithDefaults(params: seq<Param>, pos: seq<Value>, expected: seq<Value>)
    requires |pos| <= |params| && |expected| == |params|
    requires forall i :: 0 <= i < |pos| ==> expected[i] == pos[i]
    requires forall i :: |pos| <= i < |params| ==> params[i].default == Some(expected[i])
    ensures Bind(params, pos, map[]) == Ok(expected)
  {
    assert forall i :: 0 <= i < |params| ==> Binding(params, pos, map[], i) == Some(expected[i]);
    assert Bindable(params, pos, map[]);
    var r := Bind(params, pos, map[]);
    assert r.value == expected;
  }

  /** How a method lays its bound parameters out as the remote argument list. */
  datatype ArgShape =
    /** `[p1, ..., pn]`, every parameter in order. */
    | Positional
    /** `[store_view] if store_view else []`. */
    | StoreViewIfSet
    /** `filters and [filters] or [{}]`. */
    | FiltersOrEmptyDict
    /** `[id, attributes]` if `attributes` is truthy, else `[id]`. */
    | AttributesIfSet
    /** One options dict built from `filters, fields, limit, page` (`Order.search`). */
    | SearchOptions
    /** Parameter `index` replaced by `""` when it is `None`, then every parameter in order. */
    | NoneCommentAt(index: nat)

  /** The number of parameters a shape is written for. */
  predicate Fits(shape: ArgShape, arity: nat) {
    match shape
    case Positional => true
    case StoreViewIfSet => arity == 1
    case FiltersOrEmptyDict => arity == 1
    case AttributesIfSet => arity == 2
    case SearchOptions => arity == 4
    case NoneCommentAt(index) => index < arity
  }

  /** The options record `Order.search` sends. */
  function SearchRecord(filters: Value, fields: Value, limit: Value, page: Value): Value {
    Dict(map[
      "imported" := Bool(false),
      "filters" := Or(filters, EmptyDict),
      "fields" := Or(fields, EmptyList),
      "limit" := Or(limit, Int(1000)),
      "page" := page])
  }

  /** The remote argument list for the bound parameter values. */
  function Args(shape: ArgShape, vals: seq<Value>): Value
    requires Fits(shape, |vals|)
  {
    match shape
    case Positional => List(vals)
    case StoreViewIfSet => if Truthy(vals[0]) then List([vals[0]]) else List([])
    case FiltersOrEmptyDict => Or(And(vals[0], List([vals[0]])), List([EmptyDict]))
    case AttributesIfSet => if Truthy(vals[1]) then List([vals[0], vals[1]]) else List([vals[0]])
    case SearchOptions => List([SearchRecord(vals[0], vals[1], vals[2], vals[3])])
    case NoneCommentAt(k) => List(vals[k := if vals[k] == Nil then Str("") else vals[k]])
  }

  /** `currentStore` sends the store view only when it is truthy, so `None`, `0` and `""` all send `[]`. */
  lemma StoreViewIfSetArgs(storeView: Value)
    ensures Truthy(storeView) ==> Args(StoreViewIfSet, [storeView]) == List([storeView])
    ensures !Truthy(storeView) ==> Args(StoreViewIfSet, [storeView]) == List([])
  {
  }

  /** The and/or idiom of `Customer.list` sends `[filters]` or, for any falsy filter, `[{}]`. */
  lemma FiltersOrEmptyDictArgs(filters: Value)
    ensures Truthy(filters) ==> Args(FiltersOrEmptyDict, [filters]) == List([filters])
    ensures !Truthy(filters) ==> Args(FiltersOrEmptyDict, [filters]) == List([EmptyDict])
  {
    assert Truthy(List([filters]));
  }

  /** `Customer.info` sends the attributes exactly when they are truthy. */
  lemma AttributesIfSetArgs(id: Value, attributes: Value)
    ensures |Args(AttributesIfSet, [id, attributes]).items| == (if Truthy(attributes) then 2 else 1)
    ensures Args(AttributesIfSet, [id, attributes]).items[0] == id
    ensures Truthy(attributes) ==> Args(AttributesIfSet, [id, attributes]).items[1] == attributes
  {
  }

  /** Replacing a `None` comment leaves every other argument, and the list's length, as bound. */
  lemma NoneCommentArgs(vals: seq<Value>, k: nat)
    requires k < |vals|
    ensures var sent := Args(NoneCommentAt(k), vals).items;
            && |sent| == |vals|
            && sent[k] != Nil
            && (vals[k] == Nil ==> sent[k] == Str(""))
            && (vals[k] != Nil ==> sent[k] == vals[k])
            && forall j :: 0 <= j < |vals| && j != k ==> sent[j] == vals[j]
  {
  }

  /** What `int(...)`, `bool(...)` or nothing makes of the raw reply. */
  datatype Coercion = Raw | AsInt | AsBool

  function Coerce(coercion: Coercion, raw: Value): (r: Result<Value>)
    ensures coercion == Raw ==> r == Ok(raw)
    ensures coercion == AsBool ==> r.Ok? && r.value.Bool? && (r.value.b <==> Truthy(raw))
    ensures coercion == AsInt ==> (r.Ok? <==> IntOf(raw).Ok?)
    ensures coercion == AsInt && r.Ok? ==> r.value == Int(IntOf(raw).value)
    ensures coercion == AsInt && r.Err? ==> r.error == IntOf(raw).error
  {
    match coercion
    case Raw => Ok(raw)
    case AsBool => Ok(ToBool(raw))
    case AsInt =>
      match IntOf(raw)
      case Ok(n) => Ok(Int(n))
      case Err(e) => Err(e)
  }

  /** A facade method: parameters, remote resource path, argument layout and reply coercion. */
  datatype MethodRule = MethodRule(params: seq<Param>, path: string, shape: ArgShape, coercion: Coercion)

  /** The rules that are well formed, i.e. whose layout fits their parameter list. */
  type Method = m: MethodRule | Fits(m.shape, |m.params|) witness MethodRule([], "", Positional, Raw)

  /** A method that forwards its parameters in order. */
  function Forward(path: string, params: seq<Param>, coercion: Coercion): Method {
    MethodRule(params, path, Positional, coercion)
  }

  /** The `currentStore(store_view=None)` method every catalog store-scoped facade has. */
  function CurrentStore(resource: string): Method {
    MethodRule([Optional("store_view", Nil)], resource + ".currentStore", StoreViewIfSet, AsInt)
  }
}

=== FILE: outcomes.dfy ===
/** Optional values, results and the errors the client library can raise. */
module Outcomes {

  /** Python's `None` versus a present value, where the value is not a wire value. */
  datatype Option<+T> = None | Some(value: T)

  /** The exceptions the modelled code raises or lets through, one constructor per cause. */
  datatype Error =
    /** `AssertionError` from `API.__init__`: the protocol is not an installed one. */
    | UnsupportedProtocol(name: string)
    /** `AttributeError` on `None`: a remote operation before `connect()` set a client. */
    | NoClient(attribute: string)
    /** `AttributeError` on a facade: it has no method of that name. */
    | NoSuchMethod(name: string)
    /** `TypeError` from binding a call's arguments to a method's parameters. */
    | BadArguments
    /** A remote fault or transport failure, passed through unchanged. */
    | RemoteError(code: int, message: string)
    /** `TypeError` from `int()` applied to a value with no integer reading. */
    | IntTypeError
    /** `ValueError` from `int()` applied to a string that is not a decimal literal. */
    | IntValueError(text: string)

  /** Either a value or the error that was raised instead. */
  datatype Result<+T> = Ok(value: T) | Err(error: Error)

  /** Success or the error raised, for operations whose only product is a state change. */
  datatype Status = Done | Failed(error: Error)
}

=== FILE: remote.dfy ===
/**
 * The remote Magento service, seen from the client: the protocol client
 * objects `connect()` creates, the four remote operations, and a server that
 * answers each request and records it in a log.
 */
module Remote {
  import opened Outcomes
  import opened Values

  /** An optional custom `xmlrpclib.Transport`, identified only by an opaque token. */
  type Transport = nat

  /** The protocol client `connect()` creates, with the endpoint it is bound to. */
  datatype Handle =
    /** `ServerProxy(endpoint, allow_none=..., transport=...)` from xmlrpclib. */
    | XmlRpcProxy(endpoint: string, allowNone: bool, transport: Option<Transport>)
    /** `suds.client.Client(endpoint)`; its operations are reached through `.service`. */
    | SoapClient(endpoint: string)

  /** The remote operations of the Magento web-service API. */
  datatype Request =
    | Login(username: string, password: string)
    | EndSession(session: Value)
    | Call(session: Value, path: Value, args: Value)
    | MultiCall(session: Value, calls: Value)

  /** One request as it reached the server, with the client object that sent it. */
  datatype Event = Event(via: Handle, request: Request)

  /** What the server sends back: a value, or a fault / transport failure. */
  datatype Reply = Answer(value: Value) | Raised(code: int, message: string)

  /** The server as an oracle: its answer may depend on everything it has seen. */
  datatype Server = Server(answer: (seq<Event>, Event) -> Reply)

  /** The server together with the log of every request it has received. */
  datatype World = World(server: Server, log: seq<Event>)

  /** The outcome of one remote round trip. */
  datatype Sent = Sent(world: World, reply: Reply)

  /** Deliver one request: the server answers it and the log grows by exactly that event. */
  function Send(w: World, e: Event): (r: Sent)
    ensures r.world.server == w.server
    ensures r.world.log == w.log + [e]
    ensures r.reply == w.server.answer(w.log, e)
  {
    Sent(World(w.server, w.log + [e]), w.server.answer(w.log, e))
  }

  /** A reply as a Python result: a fault becomes the exception the call raises. */
  function AsResult(reply: Reply): (r: Result<Value>)
    ensures r.Ok? <==> reply.Answer?
    ensures reply.Answer? ==> r.value == reply.value
    ensures reply.Raised? ==> r.error == RemoteError(reply.code, reply.message)
  {
    match reply
    case Answer(v) => Ok(v)
    case Raised(code, message) => Err(RemoteError(code, message))
  }
}

=== FILE: sales.dfy ===
/** The sales facades (magento/sales.py): orders, shipments and invoices as method tables. */
module Sales {
  import opened Outcomes
  import opened Values
  import opened Marshal

  datatype Class = Order | Shipment | Invoice

  /** The Python class name, `klass.__name__`. */
  function ClassName(c: Class): string {
    match c
    case Order => "Order"
    case Shipment => "Shipment"
    case Invoice => "Invoice"
  }

  // Order
  const OrderList: Method := Forward("sales_order.list", [Optional("filters", Nil)], Raw)
  const OrderSearch: Method :=
    MethodRule([Optional("filters", Nil), Optional("fields", Nil), Optional("limit", Nil), Optional("page", Int(1))],
               "sales_order.search", SearchOptions, Raw)
  const OrderInfo: Method := Forward("sales_order.info", [Required("order_increment_id")], Raw)
  const OrderAddComment: Method :=
    MethodRule([Required("order_increment_id"), Required("status"), Optional("comment", Nil), Optional("notify", Bool(false))],
               "sales_order.addComment", NoneCommentAt(2), AsBool)
  const OrderHold: Method := Forward("sales_order.hold", [Required("order_increment_id")], AsBool)
  const OrderUnhold: Method := Forward("sales_order.unhold", [Required("order_increment_id")], AsBool)
  const OrderCancel: Method := Forward("sales_order.cancel", [Required("order_increment_id")], AsBool)

  // Shipment
  const ShipmentList: Method := Forward("sales_order_shipment.list", [Optional("filters", Nil)], Raw)
  const ShipmentInfo: Method := Forward("sales_order_shipment.info", [Required("shipment_increment_id")], Raw)
  const ShipmentCreate: Method :=
    MethodRule([Required("order_increment_id"), Required("items_qty"), Optional("comment", Nil),
                Optional("email", Bool(true)), Optional("include_comment", Bool(false))],
               "sales_order_shipment.create", NoneCommentAt(2), Raw)
  const ShipmentAddComment: Method :=
    Forward("sales_order_shipment.addComment",
            [Required("shipment_increment_id"), Required("comment"), Optional("email", Bool(true)),
             Optional("include_in_email", Bool(false))], AsBool)
  const ShipmentAddTrack: Method :=
    Forward("sales_order_shipment.addTrack",
            [Required("shipment_increment_id"), Required("carrier"), Required("title"), Required("track_number")], Raw)
  const ShipmentRemoveTrack: Method :=
    Forward("sales_order_shipment.removeTrack", [Required("shipment_increment_id"), Required("track_id")], AsBool)
  const ShipmentGetCarriers: Method :=
    Forward("sales_order_shipment.getCarriers", [Required("order_increment_id")], Raw)
  const ShipmentSendInfo: Method :=
    Forward("sales_order_shipment.sendInfo", [Required("shipment_increment_id"), Optional("comment", Str(""))], Raw)

  // Invoice
  const InvoiceList: Method := Forward("sales_order_invoice.list", [Optional("filters", Nil)], Raw)
  const InvoiceInfo: Method := Forward("sales_order_invoice.info", [Required("invoice_increment_id")], Raw)
  const InvoiceCreate: Method :=
    Forward("sales_order_invoice.create",
            [Required("order_increment_id"), Required("items_qty"), Optional("comment", Nil),
             Optional("email", Bool(true)), Optional("include_comment", Bool(false))], Raw)
  const InvoiceAddComment: Method :=
    MethodRule([Required("invoice_increment_id"), Optional("comment", Nil), Optional("email", Bool(false)),
                Optional("include_comment", Bool(false))],
               "sales_order_invoice.addComment", NoneCommentAt(1), AsBool)
  const InvoiceCapture: Method := Forward("sales_order_invoice.capture", [Required("invoice_increment_id")], AsBool)
  const InvoiceVoid: Method := Forward("sales_order_invoice.void", [Required("invoice_increment_id")], AsBool)
  const InvoiceCancel: Method := Forward("sales_order_invoice.cancel", [Required("invoice_increment_id")], AsBool)

  /** The method a sales facade has under `name`, if any. */
  function Lookup(c: Class, name: string): Option<Method> {
    match c
    case Order =>
      (match name
       case "list" => Some(OrderList)
       case "search" => Some(OrderSearch)
       case "info" => Some(OrderInfo)
       case "addcomment" => Some(OrderAddComment)
       case "addComment" => Some(OrderAddComment)
       case "hold" => Some(OrderHold)
       case "unhold" => Some(OrderUnhold)
       case "cancel" => Some(OrderCancel)
       case _ => None)
    case Shipment =>
      (match name
       case "list" => Some(ShipmentList)
       case "info" => Some(ShipmentInfo)
       case "create" => Some(ShipmentCreate)
       case "addcomment" => Some(ShipmentAddComment)
       case "addComment" => Some(ShipmentAddComment)
       case "addtrack" => Some(ShipmentAddTrack)
       case "addTrack" => Some(ShipmentAddTrack)
       case "removetrack" => Some(ShipmentRemoveTrack)
       case "removeTrack" => Some(ShipmentRemoveTrack)
       case "getcarriers" => Some(ShipmentGetCarriers)
       case "getCarriers" => Some(ShipmentGetCarriers)
       case "sendinfo" => Some(ShipmentSendInfo)
       case "sendInfo" => Some(ShipmentSendInfo)
       case _ => None)
    case Invoice =>
      (match name
       case "list" => Some(InvoiceList)
       case "info" => Some(InvoiceInfo)
       case "create" => Some(InvoiceCreate)
       case "addcomment" => Some(InvoiceAddComment)
       case "addComment" => Some(InvoiceAddComment)
       case "capture" => Some(InvoiceCapture)
       case "void" => Some(InvoiceVoid)
       case "cancel" => Some(InvoiceCancel)
       case _ => None)
  }

  /**
   * `Order.search` sends one options record: `imported` false, falsy filters
   * as `{}`, falsy fields as `[]`, a falsy limit as 1000, and the page as given.
   */
  lemma OrderSearchRecord(filters: Value, fields: Value, limit: Value, page: Value)
    ensures var sent := Args(OrderSearch.shape, [filters, fields, limit, page]);
            && sent.List? && |sent.items| == 1 && sent.items[0].Dict?
            && var options := sent.items[0].fields;
               && options.Keys == {"imported", "filters", "fields", "limit", "page"}
               && options["imported"] == Bool(false)
               && options["filters"] == (if Truthy(filters) then filters else EmptyDict)
               && options["fields"] == (if Truthy(fields) then fields else EmptyList)
               && options["limit"] == (if Truthy(limit) then limit else Int(1000))
               && options["page"] == page
  {
  }

  /** `Order.search()` with every default asks for page 1 of at most 1000 orders, unfiltered. */
  lemma OrderSearchDefaults()
    ensures Bind(OrderSearch.params, [], map[]) == Ok([Nil, Nil, Nil, Int(1)])
    ensures Args(OrderSearch.shape, [Nil, Nil, Nil, Int(1)]) ==
            List([Dict(map["imported" := Bool(false), "filters" := EmptyDict, "fields" := EmptyList,
                           "limit" := Int(1000), "page" := Int(1)])])
  {
    BindWithDefaults(OrderSearch.params, [], [Nil, Nil, Nil, Int(1)]);
  }

  /** `Order.list` forwards its filter as given, so `Order.list()` sends `[None]`. */
  lemma OrderListSendsNone()
    ensures Bind(OrderList.params, [], map[]) == Ok([Nil])
    ensures Args(OrderList.shape, [Nil]) == List([Nil])
  {
    BindWithDefaults(OrderList.params, [], [Nil]);
  }

  /** `Order.addcomment(id, status)` sends `[id, status, "", False]` and returns a bool. */
  lemma OrderAddCommentDefaults(id: Value, status: Value)
    ensures Bind(OrderAddComment.params, [id, status], map[]) == Ok([id, status, Nil, Bool(false)])
    ensures Args(OrderAddComment.shape, [id, status, Nil, Bool(false)]) == List([id, status, Str(""), Bool(false)])
    ensures OrderAddComment.coercion == AsBool
  {
    BindWithDefaults(OrderAddComment.params, [id, status], [id, status, Nil, Bool(false)]);
  }

  /** `Shipment.create` turns a `None` comment into `''`; `Invoice.create` forwards `None`. */
  lemma CreateCommentHandling(order: Value, items: Value, email: Value, includeComment: Value)
    ensures Args(ShipmentCreate.shape, [order, items, Nil, email, includeComment]) == List([order, items, Str(""), email, includeComment])
    ensures Args(InvoiceCreate.shape, [order, items, Nil, email, includeComment]) == List([order, items, Nil, email, includeComment])
    ensures ShipmentCreate.coercion == Raw && InvoiceCreate.coercion == Raw
  {
  }

  /** `Shipment.addcomment` sends an omitted `email` as `True` and a `None` comment as it is. */
  lemma ShipmentAddCommentDefaults(id: Value, comment: Value)
    ensures Bind(ShipmentAddComment.params, [id, comment], map[]) == Ok([id, comment, Bool(true), Bool(false)])
    ensures Args(ShipmentAddComment.shape, [id, Nil, Bool(true), Bool(false)]) == List([id, Nil, Bool(true), Bool(false)])
  {
    BindWithDefaults(ShipmentAddComment.params, [id, comment], [id, comment, Bool(true), Bool(false)]);
  }

  /** `Invoice.addcomment` sends an omitted `email` as `False` and a `None` comment as `''`. */
  lemma InvoiceAddCommentDefaults(id: Value)
    ensures Bind(InvoiceAddComment.params, [id], map[]) == Ok([id, Nil, Bool(false), Bool(false)])
    ensures Args(InvoiceAddComment.shape, [id, Nil, Bool(false), Bool(false)]) == List([id, Str(""), Bool(false), Bool(false)])
  {
    BindWithDefaults(InvoiceAddComment.params, [id], [id, Nil, Bool(false), Bool(false)]);
  }

  /** The camel-case spellings are the same methods as the lower-case originals. */
  lemma SalesAliases()
    ensures Lookup(Order, "addComment") == Lookup(Order, "addcomment") == Some(OrderAddComment)
    ensures Lookup(Shipment, "addComment") == Lookup(Shipment, "addcomment") == Some(ShipmentAddComment)
    ensures Lookup(Shipment, "addTrack") == Lookup(Shipment, "addtrack") == Some(ShipmentAddTrack)
    ensures Lookup(Shipment, "removeTrack") == Lookup(Shipment, "removetrack") == Some(ShipmentRemoveTrack)
    ensures Lookup(Shipment, "getCarriers") == Lookup(Shipment, "getcarriers") == Some(ShipmentGetCarriers)
    ensures Lookup(Shipment, "sendInfo") == Lookup(Shipment, "sendinfo") == Some(ShipmentSendInfo)
    ensures Lookup(Invoice, "addComment") == Lookup(Invoice, "addcomment") == Some(InvoiceAddComment)
  {
  }
}

=== FILE: urls.dfy ===
/** Expansion of a store's base URL into the web-service endpoint (magento/utils.py). */
module Urls {

  /** Appended for the SOAP protocol: the WSDL document. */
  const SoapPart: string := "api/?wsdl"
  /** Appended for every other protocol name: the XML-RPC endpoint. */
  const XmlRpcPart: string := "index.php/api/xmlrpc"

  /** The service path for a protocol name; only the exact name "soap" selects SOAP. */
  function ServicePart(protocol: string): (part: string)
    ensures protocol == "soap" ==> part == SoapPart
    ensures protocol != "soap" ==> part == XmlRpcPart
    ensures |part| > 0
  {
    if protocol == "soap" then SoapPart else XmlRpcPart
  }

  predicate EndsWithSlash(url: string) {
    |url| > 0 && url[|url| - 1] == '/'
  }

  /**
   * `expand_url`: the base URL, one `/` separator unless the base already
   * ends in one, then the protocol's service path.
   */
  function ExpandUrl(url: string, protocol: string): (r: string)
    ensures |r| == |url| + |ServicePart(protocol)| + (if EndsWithSlash(url) then 0 else 1)
    ensures r[..|url|] == url
    ensures r[|r| - |ServicePart(protocol)|..] == ServicePart(protocol)
    ensures !EndsWithSlash(url) ==> r[|url|] == '/'
    ensures EndsWithSlash(r[..|r| - |ServicePart(protocol)|])
  {
    var part := ServicePart(protocol);
    if EndsWithSlash(url) then url + part else url + "/" + part
  }

  /** The expansion never comes out empty, whatever the base. */
  lemma ExpandUrlNonEmpty(url: string, protocol: string)
    ensures ExpandUrl(url, protocol) != ""
  {
    assert |ExpandUrl(url, protocol)| > 0;
  }

  /** Exactly one separator: a base and the same base with a trailing `/` expand alike. */
  lemma ExpandUrlTrailingSlash(url: string, protocol: string)
    requires !EndsWithSlash(url)
    ensures ExpandUrl(url, protocol) == ExpandUrl(url + "/", protocol)
  {
    assert EndsWithSlash(url + "/");
  }

  /** The SOAP cases of tests/test_utils.py: with or without the slash, one separator. */
  lemma ExpandUrlLocalhostSoap()
    ensures ExpandUrl("http://localhost", "soap") == "http://localhost/api/?wsdl"
    ensures ExpandUrl("http://localhost/", "soap") == "http://localhost/api/?wsdl"
  {
    assert !EndsWithSlash("http://localhost");
    assert EndsWithSlash("http://localhost/");
  }

  /** The XML-RPC cases of tests/test_utils.py. */
  lemma ExpandUrlLocalhostXmlRpc()
    ensures ExpandUrl("http://localhost", "xmlrpc") == "http://localhost/index.php/api/xmlrpc"
    ensures ExpandUrl("http://localhost/", "xmlrpc") == "http://localhost/index.php/api/xmlrpc"
  {
    assert !EndsWithSlash("http://localhost");
    assert EndsWithSlash("http://localhost/");
  }
}

=== FILE: values.dfy ===
/**
 * Values exchanged with the remote service, with the three Python operations
 * the facades apply to them: truthiness (`if x`, `x or y`, `x and y`, `bool(x)`)
 * and `int(x)`.
 */
module Values {
  import opened Outcomes

  /** A value as the XML-RPC or SOAP layer hands it to Python. */
  datatype Value =
    | Nil
    | Bool(b: bool)
    | Int(i: int)
    | Str(s: string)
    | List(items: seq<Value>)
    | Dict(fields: map<string, Value>)

  const EmptyDict: Value := Dict(map[])
  const EmptyList: Value := List([])

  /** Python truthiness: `None`, `False`, `0` and empty strings, lists and dicts are false. */
  predicate Truthy(v: Value) {
    match v
    case Nil => false
    case Bool(b) => b
    case Int(i) => i != 0
    case Str(s) => |s| > 0
    case List(items) => |items| > 0
    case Dict(fields) => |fields| > 0
  }

  /** Python `x or y`: the left operand when it is truthy, else the right one. */
  function Or(x: Value, y: Value): Value {
    if Truthy(x) then x else y
  }

  /** Python `x and y`: the right operand when the left is truthy, else the left one. */
  function And(x: Value, y: Value): Value {
    if Truthy(x) then y else x
  }

  /** Python `bool(x)`. */
  function ToBool(v: Value): (r: Value)
    ensures r.Bool? && (r.b <==> Truthy(v))
  {
    Bool(Truthy(v))
  }

  predicate IsDigit(c: char) {
    '0' <= c <= '9'
  }

  predicate AllDigits(s: string) {
    forall i :: 0 <= i < |s| ==> IsDigit(s[i])
  }

  /** The strings `int()` accepts in this model: an optional sign followed by at least one digit. */
  predicate IsDecimal(s: string) {
    if |s| > 0 && (s[0] == '-' || s[0] == '+') then |s| > 1 && AllDigits(s[1..])
    else |s| > 0 && AllDigits(s)
  }

  /** The number a run of decimal digits denotes, most significant digit first. */
  function DigitsValue(s: string): nat
    requires AllDigits(s)
  {
    if |s| == 0 then 0
    else DigitsValue(s[..|s| - 1]) * 10 + (s[|s| - 1] as int - '0' as int)
  }

  /** Python `int(x)` on a wire value. */
  function IntOf(v: Value): (r: Result<int>)
    ensures r.Ok? <==> v.Bool? || v.Int? || (v.Str? && IsDecimal(v.s))
    ensures v.Int? ==> r == Ok(v.i)
    ensures v.Bool? ==> r == Ok(if v.b then 1 else 0)
    ensures v.Str? && !IsDecimal(v.s) ==> r == Err(IntValueError(v.s))
    ensures (v.Nil? || v.List? || v.Dict?) ==> r == Err(IntTypeError)
  {
    match v
    case Nil => Err(IntTypeError)
    case Bool(b) => Ok(if b then 1 else 0)
    case Int(i) => Ok(i)
    case Str(s) =>
      if !IsDecimal(s) then Err(IntValueError(s))
      else if s[0] == '-' then Ok(-(DigitsValue(s[1..]) as int))
      else if s[0] == '+' then Ok(DigitsValue(s[1..]))
      else Ok(DigitsValue(s))
    case List(_) => Err(IntTypeError)
    case Dict(_) => Err(IntTypeError)
  }

  function DigitChar(d: nat): char
    requires d < 10
  {
    ('0' as int + d) as char
  }

  /** The shortest decimal spelling of a natural number. */
  function NatString(n: nat): string
  {
    if n < 10 then [DigitChar(n)] else NatString(n / 10) + [DigitChar(n % 10)]
  }

  /** How a server that sends identifiers as text spells an integer. */
  function DecimalString(n: int): string {
    if n < 0 then "-" + NatString(-n) else NatString(n)
  }

  lemma {:induction false} NatStringDenotes(n: nat)
    ensures |NatString(n)| > 0 && AllDigits(NatString(n))
    ensures DigitsValue(NatString(n)) == n
  {
    if n >= 10 {
      NatStringDenotes(n / 10);
      var s := NatString(n);
      assert s[..|s| - 1] == NatString(n / 10);
    }
  }

  /** `int()` reads back every integer from its decimal spelling. */
  lemma IntOfDecimalString(n: int)
    ensures IntOf(Str(DecimalString(n))) == Ok(n)
  {
    var digits := if n < 0 then NatString(-n) else NatString(n);
    NatStringDenotes(if n < 0 then -n else n);
    if n < 0 {
      var s := DecimalString(n);
      assert s[1..] == digits;
    }
  }

  /** A leading zero adds nothing to the number a run of digits denotes. */
  lemma {:induction false} DigitsLeadingZero(d: string)
    requires AllDigits(d)
    ensures AllDigits("0" + d) && DigitsValue("0" + d) == DigitsValue(d)
  {
    var s := "0" + d;
    if |d| > 0 {
      assert s[..|s| - 1] == "0" + d[..|d| - 1];
      DigitsLeadingZero(d[..|d| - 1]);
    } else {
      assert s[..|s| - 1] == "";
    }
  }

  /**
   * `int()` on the other spellings it accepts: a `+` sign and leading zeros
   * change nothing, and a `-` sign negates, so `int("+5")`, `int("007")` and
   * `int("-0")` are 5, 7 and 0.
   */
  lemma IntOfSpellings(d: string)
    requires |d| > 0 && AllDigits(d)
    ensures IntOf(Str("+" + d)) == IntOf(Str(d))
    ensures IntOf(Str("0" + d)) == IntOf(Str(d))
    ensures IntOf(Str("-" + d)).Ok? && IntOf(Str(d)).Ok?
    ensures IntOf(Str("-" + d)).value == -IntOf(Str(d)).value
  {
    assert ("+" + d)[1..] == d;
    assert ("-" + d)[1..] == d;
    DigitsLeadingZero(d);
  }

  /** `int("+5")`, `int("007")` and `int("-0")` are 5, 7 and 0. */
  lemma IntOfSpellingExamples()
    ensures IntOf(Str("+5")) == Ok(5) && IntOf(Str("007")) == Ok(7) && IntOf(Str("-0")) == Ok(0)
  {
    assert DigitsValue("5") == 5 && DigitsValue("7") == 7 && DigitsValue("0") == 0;
    IntOfSpellings("5");
    assert "+" + "5" == "+5";
    IntOfSpellings("7");
    IntOfSpellings("07");
    assert "0" + "7" == "07" && "0" + "07" == "007";
    IntOfSpellings("0");
    assert "-" + "0" == "-0";
  }
}
